=== FILE: README.md ===
# Karlsruhe bicycle lanes: a Dafny model of the frame logic

`bike_new_ka.py` loads the bicycle lanes of Karlsruhe and renders two things:
- a static map coloured by construction year;
- an animation that adds the lanes year by year under a running total ("Bis 2007: 812 Wege. 1234,5 km").

Most of the script calls geospatial and plotting libraries. This project models the pure logic between those calls, which decides what is drawn, in which colour and with which caption:

- dropping duplicate geometries, keeping the last (`Dedup`);
- deriving the construction year with `strptime` (`Timestamp`);
- the sorted distinct years, the colour rank of a year, the gradient mix `i/N` and the colour table `cmap` (`YearIndex`);
- the data bounds, the axis limits widened by a truncated 3% margin, and the label anchor (`Layout`);
- the year-bucketed selections and their count and length (`Statistics`);
- `init`, `update` and the frame list `years[1:]` (`Animation`);
- the script end to end, with the ways it aborts (`Pipeline`).

Records are modelled as follows:
- A record is a polyline geometry, the `VORGANGSZE` timestamp and a length in whole metres.
- Lengths are given per record.
- Coordinates are taken to be the reprojected ones already.
- Duplicate geometries are detected by structural equality of their vertex lists.

The script aborts at the first of these causes, checked in this order. Each is an `Err` of `Records.Error`, named by its cause:
- a timestamp `strptime` rejects (`MalformedTimestamp`, bike_new_ka.py:47-49);
- no rows at all (`TooFewYears(0)`): the run aborts, at the latest at bike_new_ka.py:85, where the colour list is empty and building the colormap reads its first entry. Reading the columns of an empty layer or writing it out may already fail earlier (bike_new_ka.py:44-52); the model records only that the run aborts;
- rows but no vertex: the bounds are NaN and `int(NaN)` raises (`NoBounds`, bike_new_ka.py:100);
- a single distinct year: the one-colour colormap has no end point at 1, so drawing the static figure raises ValueError (`TooFewYears(1)`, bike_new_ka.py:117-143). `years[1]` in `init` would raise IndexError after it.

The two colormap failures follow matplotlib's documented behaviour for `LinearSegmentedColormap`. The model records only that the run aborts with that cause, not the exception or the line.

These properties are proved:
- Every survivor of the duplicate removal is the last input record with its geometry, and survivors keep their order.
- The timestamp parser matches CPython's `_strptime` pattern, including the lenient forms it accepts, and a canonical rendering parses back to its date-time.
- Ranks, mixes and colours follow the ascending distinct years.
- The anchor lies below every vertex.
- From frame to frame:
  - the count strictly increases;
  - the length never decreases;
  - the length grows by exactly what the frame draws;
  - the last frame shows every record and the whole length.

The code disagrees with its own comment on one point. The comment on `colorFader` (bike_new_ka.py:61) says the fade runs from the first colour at mix 0 to the second at mix 1. The loop at bike_new_ka.py:68-69 passes `i/N` for `i` below `N`, so the last year gets mix (N-1)/N and the pure second colour is never used. The model follows the code: `YearIndex.MixBounds` proves every mix lies in [0, 1).

## Model

| member | source | states |
|---|---|---|
| Dedup.LastIndex | bike_new_ka.py:33 | the position of a record with the geometry, or -1; it carries that geometry |
| Dedup.LastIndexIsLast | bike_new_ka.py:33 | no record after that position carries the geometry, so it is the last one, and -1 means the geometry does not occur |
| Dedup.KeepLast | bike_new_ka.py:33 | the deduplicated rows: no two share a geometry; no geometry is lost; there are no more rows than the input; each survivor is the input's last record with its geometry; survivors keep input order |
| Dedup.KeepLastEmpty | bike_new_ka.py:33 | duplicate removal leaves no rows exactly when there were none |
| Dedup.KeepLastOfUnique | bike_new_ka.py:33 | input whose geometries are already unique passes through unchanged |
| Dedup.KeepLastIdempotent | bike_new_ka.py:33 | removing duplicates twice equals removing them once |
| Dedup.DropDuplicates | bike_new_ka.py:33 | the single backward pass with a set of seen geometries computes exactly the keep-last result |
| Dedup.LaterDuplicateSurvives | bike_new_ka.py:33 | of two rows with one geometry, only the later one remains |
| Dedup.KeepLastIgnoresSuperseded | bike_new_ka.py:33 | replacing a row that a later row supersedes by any row with the same geometry, whatever its timestamp, length or other attributes, leaves the result unchanged |
| Timestamp.DirectiveRanges | bike_new_ka.py:47 | each directive's pattern alone bounds its value: month 1..12, day 1..31, hour up to 23, minute up to 59, second up to 61 |
| Timestamp.FromFields | bike_new_ka.py:47 | a field that fails its directive gives nothing; once all match, the constructors refuse only year 0, a day past the end of its month, and seconds 60 and 61; a result is valid and carries the four-digit year |
| Timestamp.Parse | bike_new_ka.py:47 | a parsed timestamp is a valid date-time whose year is the value of the four leading digits, followed by `-`, in a string of 14 to 19 characters |
| Timestamp.Year | bike_new_ka.py:46-47 | `yrs` succeeds exactly when `strptime` does, giving a year in 1..9999 read from the four-digit prefix; otherwise it is an error naming the timestamp, never a default year |
| Timestamp.CutField | bike_new_ka.py:47 | a one- or two-character field followed by its separator is split off whole |
| Timestamp.ParseLayout | bike_new_ka.py:47 | a string in the `%Y-%m-%dT%H:%M:%S` layout is cut into exactly its fields, so it parses as those fields do |
| Timestamp.ParseOnlyLayout | bike_new_ka.py:47 | conversely, every accepted string is in the `%Y-%m-%dT%H:%M:%S` layout, with one- or two-character fields and a `T` or `t`, and parses as its fields do, so any other string is an error |
| Timestamp.Pad4Value | bike_new_ka.py:47 | the zero-padded four-digit rendering of a year is a year field that reads back as that year |
| Timestamp.Pad2Fields | bike_new_ka.py:47 | a zero-padded two-digit field matches each directive exactly when its value lies in that directive's range |
| Timestamp.ParseRender | bike_new_ka.py:47 | round trip: the canonical rendering parses back to the date-time exactly when the constructors accept it, and to nothing otherwise |
| Timestamp.YearOfRender | bike_new_ka.py:46-47 | a well-formed timestamp yields its year; a calendar-invalid one in the same layout is an error |
| Timestamp.ShortFields | bike_new_ka.py:47 | `2020-1-5t7:3:9` is accepted, with year 2020 |
| Timestamp.BlankPaddedDay | bike_new_ka.py:47 | `1987-12- 5T23:59:59` is accepted, with year 1987 |
| Timestamp.NoLeapDay | bike_new_ka.py:47 | `2021-02-29T00:00:00` is an error |
| Timestamp.NoLeapSecond | bike_new_ka.py:47 | `2020-01-01T00:00:60` is an error, although the pattern admits second 60 |
| Timestamp.NoYearZero | bike_new_ka.py:47 | `0000-01-01T00:00:00` is an error |
| Timestamp.BlankForT | bike_new_ka.py:47 | a blank in place of the `T` is an error |
| Timestamp.DateOnly | bike_new_ka.py:47 | a date without a time is an error |
| YearIndex.DistinctYears | bike_new_ka.py:58 | `years` is strictly ascending, holds exactly the years that occur, and is no longer than the input |
| YearIndex.AscendingUnique | bike_new_ka.py:58 | two strictly ascending sequences with the same elements are equal |
| YearIndex.DistinctYearsOfSameSet | bike_new_ka.py:58 | `years` depends only on which years occur, not on their order or multiplicity |
| YearIndex.Rank | bike_new_ka.py:75-79 | `colorize(x)` is found exactly when `x` is among the years; the index is in range, holds `x`, and is the first such index |
| YearIndex.RankOfPosition | bike_new_ka.py:75-79 | over the distinct years, the rank of the year at position `i` is `i` |
| YearIndex.RankMonotone | bike_new_ka.py:75-79 | one year is earlier than another exactly when its rank is smaller |
| YearIndex.MixBounds | bike_new_ka.py:66-69 | every mix `i/N` lies in [0, 1) and is 0 exactly at rank 0 |
| YearIndex.MixIncreasing | bike_new_ka.py:66-69 | the mix strictly increases with the rank |
| YearIndex.Mixes | bike_new_ka.py:66-69 | the colour loop yields exactly N mixes; entry `i` is `i/N`, entry 0 is 0, all lie in [0, 1) and they strictly increase |
| YearIndex.ColourTable | bike_new_ka.py:71-72 | `cmap` has a key exactly for each distinct year and maps the year at position `i` to colour `i` |
| YearIndex.ColourTableAgreesWithRank | bike_new_ka.py:71-81 | the animation's `cmap`, built by pairing years with colours, and `colorize`, which fills the `color` column, give every year the same colour index |
| Layout.Trunc | bike_new_ka.py:100-107 | `int()` truncates toward zero: it never moves away from zero and is off by less than one |
| Layout.GeometryBounds | bike_new_ka.py:94-95 | one geometry's bounds exist exactly when it has a vertex, are ordered, and contain every vertex |
| Layout.Bounds | bike_new_ka.py:94-95 | the data bounds exist exactly when some geometry has a vertex, are ordered, and contain every vertex |
| Layout.BoundsTight | bike_new_ka.py:94-95 | every box containing all vertices contains the bounds, so they are the smallest such box |
| Layout.GeometryBoundsTight | bike_new_ka.py:94-95 | every box containing a geometry's vertices contains its bounds |
| Layout.Extent | bike_new_ka.py:97-107 | each side moves outward by the same truncated margin, at most 3% of the width or height and within one unit of it, so the limits enclose the bounds; the anchor is at most 2% of the width right of the left limit and at most 8% of the height below the bottom limit |
| Layout.AnchorBelowData | bike_new_ka.py:93-107 | every vertex lies inside the axis limits, and the label anchor is at or below every vertex |
| Statistics.UpTo | bike_new_ka.py:167-169 | `edf[edf.year <= c]` holds exactly the data's records whose year is at most `c`, and no more rows than the data |
| Statistics.InYear | bike_new_ka.py:191 | `edf[edf.year == c]` holds exactly the data's records of year `c`, and no more rows than the data |
| Statistics.SelectionContents | bike_new_ka.py:167 | `edf[edf.year <= c]` and `edf[edf.year == c]` keep each qualifying record as often as the data holds it, and nothing else |
| Statistics.SelectionMembers | bike_new_ka.py:191 | a record is selected exactly when it is in the data and its year qualifies |
| Statistics.TotalLengthAppend | bike_new_ka.py:192 | the summed length of two parts is the sum of their lengths |
| Statistics.UpToMonotone | bike_new_ka.py:192-193 | a later cutoff never reports fewer records or less length |
| Statistics.UpToAll | bike_new_ka.py:192-193 | a cutoff at or after every record's year selects the whole dataset |
| Statistics.UpToStep | bike_new_ka.py:191-193 | moving the cutoff across no other record year adds exactly that year's records, to the count and to the length |
| Statistics.InYearNonEmpty | bike_new_ka.py:191 | a year some record carries selects at least that record |
| Animation.Schedule | bike_new_ka.py:208 | one frame per year of `years[1:]`: over ascending years the frames ascend, they show exactly the years after the first, and each frame draws only records of its own year |
| Animation.Animate | bike_new_ka.py:208-209 | the animation exists exactly when there are at least two distinct years, else it is `TooFewYears`; its frames run over the distinct years after the first |
| Animation.ColouredSchedule | bike_new_ka.py:163-191 | with `cmap` built from ascending distinct years, `init` uses colour 0 and the update of `years[k+1]` uses colour `k+1`, drawing that year's records and labelling the totals up to it |
| Animation.AnimateShaped | bike_new_ka.py:163-209 | `init` draws everything up to `years[1]` in colour 0 and labels the totals up to `years[1]`; frame `k` draws exactly year `years[k+1]` in colour `k+1` and labels the totals up to it |
| Animation.NoYearBetween | bike_new_ka.py:58 | no record year lies strictly between two consecutive frame years |
| Animation.FramesAscending | bike_new_ka.py:208 | frames run in strictly ascending year order, and the first frame is the cutoff `init` already covers |
| Animation.FramesDrawTheirYear | bike_new_ka.py:167-191 | `init` draws exactly the records up to `years[1]`, and each frame draws exactly the records of its own year |
| Animation.EveryRecordDrawn | bike_new_ka.py:167-191 | every record is drawn, by `init` or by the frame of its own year |
| Animation.FrameColours | bike_new_ka.py:165-189 | `init` uses the first colour; each frame uses the colour `colorize` gives its year; frame colours strictly increase |
| Animation.FrameTotalsGrow | bike_new_ka.py:187-193 | the first frame repeats the totals of `init`; from frame to frame the count strictly increases and the length never decreases |
| Animation.TallyGrows | bike_new_ka.py:192-193 | raising the cutoff to a later year some record carries adds at least one record and loses no length |
| Animation.FrameStep | bike_new_ka.py:191-193 | between consecutive frames the count grows by the number of records drawn, and the length by exactly their length |
| Animation.YearsUpToLast | bike_new_ka.py:58 | no record's year is later than the last of the sorted distinct years, the year of the last frame |
| Animation.LastFrameTotals | bike_new_ka.py:192-193 | the last frame counts every record and the whole length |
| Animation.Telescope | bike_new_ka.py:192 | when each step adds exactly what it draws, the last label is the first plus everything drawn after the first step |
| Animation.DrawnAddsUp | bike_new_ka.py:167-195 | what `init` draws plus what the later frames draw adds up to the length of the whole dataset |
| Animation.TwoYears | bike_new_ka.py:163-209 | with exactly two distinct years there is one frame; `init` draws everything up to the second year in colour 0 and the frame redraws that year's records in colour 1 under the same totals |
| Animation.ThreeLaneSelections | bike_new_ka.py:167-191 | for lanes of 2001, 2003 and 2003, the cutoff 2001 selects the first, 2003 selects all, and year 2003 the last two |
| Animation.ThreeLaneTotals | bike_new_ka.py:168-169 | for those lanes of 100 m, 200 m and 300 m, the totals are 1 lane with 100 m up to 2001 and 3 lanes with 600 m up to 2003 |
| Animation.ThreeLaneYears | bike_new_ka.py:58 | for those lanes the distinct years are 2001 and 2003 |
| Animation.ThreeLanes | bike_new_ka.py:163-209 | for those lanes the animation has years 2001 and 2003, `init` draws all three in colour 0 with 3 lanes and 600 m, and the single frame draws the 2003 lanes in colour 1 |
| Pipeline.DateAll | bike_new_ka.py:49 | the year column exists exactly when every timestamp parses, holding each record's year; otherwise the error names the first malformed timestamp |
| Pipeline.ShiftMalformed | bike_new_ka.py:49 | after a well-formed first timestamp, the first malformed one of the rest is the first malformed one overall |
| Pipeline.ColourColumn | bike_new_ka.py:75-81 | the `color` column exists exactly when every record's year is among the years, and then holds for each record an index of its year |
| YearIndex.YearsCoverRecords | bike_new_ka.py:58 | every record's year is among the distinct years, so `colorize` never raises |
| Pipeline.Colours | bike_new_ka.py:81 | the `color` column of the data indexes each record's own year in the sorted years |
| Pipeline.YearRange | bike_new_ka.py:58 | the first and last distinct years bound every record's year |
| Pipeline.Caption | bike_new_ka.py:139 | the caption of the static figure spans from the earliest to the latest record year, both of which occur |
| Pipeline.Assemble | bike_new_ka.py:58-209 | the outputs carry the sorted years, a colour per record indexing its year, the caption bounds and the extent of the bounds |
| Pipeline.Derive | bike_new_ka.py:58-209 | after the year column, the run succeeds exactly when some vertex exists and there are two distinct years; otherwise, in the script's order, it is `TooFewYears(0)` without rows, `NoBounds` without a vertex and `TooFewYears(1)` with one year; the axis limits cover every vertex, and the animation has the shape of `AnimateShaped` |
| Pipeline.AfterCleanup | bike_new_ka.py:46-209 | from the year column on, the script succeeds exactly when every timestamp parses, some vertex exists and there are two distinct years; a bad timestamp aborts first, with the first malformed row's stamp, and only a bad timestamp gives `MalformedTimestamp`; it is `TooFewYears(0)` exactly when there are no rows; a produced animation has the shape of `AnimateShaped` |
| Pipeline.Run | bike_new_ka.py:27-209 | the script succeeds exactly when every kept timestamp parses, some vertex exists and there are two distinct years; a bad kept timestamp aborts first, naming the first malformed kept row's stamp, and only then is the error `MalformedTimestamp`; it is `TooFewYears(0)` exactly when there are no rows, and too few years always means at most one; a produced animation has the shape of `AnimateShaped`, so every frame lemma applies to it |
| Pipeline.RunAfterCleanup | bike_new_ka.py:33 | running on already deduplicated rows gives the same outputs |
| Pipeline.SupersededStampIgnored | bike_new_ka.py:33-49 | a superseded row's timestamp, even a malformed one, does not affect the run, because duplicates are dropped before the years are derived |

## Left out

- Reading and writing GeoJSON (bike_new_ka.py:27, 52) is file I/O. The model starts from the loaded rows.
- Reprojection to EPSG:3035 (bike_new_ka.py:39) is treated as the identity. Coordinates are taken as already metric.
- The geometric length (bike_new_ka.py:42) is a floating-point library computation. Each record carries its length as a given whole number of metres, and sums are exact.
- Statistics.TotalLengthAppend and the other length lemmas: sums are exact over naturals, unlike pandas' floating-point `sum`.
- Layout.Extent: the margin fractions 0.03, 0.02 and 0.08 are exact rationals here, not binary floats. A product that lands exactly on an integer may truncate one unit differently in the script.
- YearIndex.Mix: the mix is an exact rational. The RGB interpolation and hex conversion in `colorFader` and the `LinearSegmentedColormap` (bike_new_ka.py:62-64, 83-86) are floating-point library work and are not modelled.
- YearIndex.ColourTable: `cmap` is keyed by `str(y)` in the script. Here it is keyed by the year itself, which is equivalent because `str` is injective on integers.
- Timestamp.Year: only ASCII digits are modelled. Python's `\d` also matches other Unicode decimal digits.
- Animation.Init, Animation.Update and Animation.Tally carry no contract of their own. Their properties are stated over a produced animation by `AnimateShaped` and the frame lemmas.
- The step colour is the index into `colors`, not the hex string. `FrameColours` with `MixIncreasing` relates it to the gradient.
- These calls are rendering and are not modelled:
  - matplotlib figure set-up, plotting, titles, `savefig` and `plt.show`;
  - the static plot's own colouring. `edf.plot("year", cmap=colorMap)` (bike_new_ka.py:117-119) scales each year's value linearly between the first and the last year, so it uses neither the `color` column nor `cmap`. Despite the comment at bike_new_ka.py:116, a year can get a different colour there than in the animation: with years 1980, 2007 and 2008, the animation gives 2007 colour 1 and the static figure picks entry 2.
- The contextily basemap (bike_new_ka.py:134-136, 179-180) needs the network.
- Babel's German number formatting and the division by 1000 into kilometres (bike_new_ka.py:168, 176, 192, 201) are locale formatting. Labels carry metres.
- `FuncAnimation` timing, blitting and MP4 encoding (bike_new_ka.py:208-211) are video output.
- Partial output before an abort is not modelled. For example, `edf.geojson` is written (bike_new_ka.py:52) before the colormap, the bounds or the static figure can fail.
- The console diagnostics printed along the way (bike_new_ka.py:28-59, 164-205) are output only and are not modelled.

=== FILE: animation.dfy ===
/**
 * The animation's frame schedule and what each drawing step shows.
 *
 * `init` draws every record built up to the second distinct year in the
 * colour of the first year and labels the totals up to the second year.
 * `update(frame)` then runs for each year of `years[1:]` in ascending order:
 * it draws only the records of that year, in that year's colour, and labels
 * the count and length of all records built up to it. Nothing drawn is ever
 * removed, so the drawing accumulates. Each update also draws a new label
 * without removing the previous one; its opaque background and trailing
 * blanks cover the previous one.
 * On its own the animation needs two distinct years: with fewer,
 * `years[1]` does not exist. In the whole script a single year already
 * fails earlier, when the static figure is drawn.
 */
module Animation {
  import opened Records
  import opened YearIndex
  import opened Statistics

  /** The running-total label: cutoff year, number of lanes ("Wege") and
      cumulative length in metres. */
  datatype Label = Label(cutoff: int, tracks: nat, metres: nat)

  /** One drawing step: the records plotted, the position in `colors` of
      the colour they are plotted in, and the label shown afterwards. */
  datatype Step = Step(year: int, drawn: seq<Dated>, colour: nat, text: Label)

  datatype Movie = Movie(years: seq<int>, init: Step, frames: seq<Step>)

  /** Count and summed length of the records with `year <= cutoff`. */
  function Tally(ds: seq<Dated>, cutoff: int): Label
  {
    var upto := UpTo(ds, cutoff);
    Label(cutoff, |upto|, TotalLength(upto))
  }

  /** `init()`, with the colour table `cmap` computed once beforehand. */
  function Init(ds: seq<Dated>, years: seq<int>, cmap: map<int, nat>): Step
    requires |years| >= 2 && years[0] in cmap
  {
    Step(years[0], UpTo(ds, years[1]), cmap[years[0]], Tally(ds, years[1]))
  }

  /** `update(frame)`. */
  function Update(ds: seq<Dated>, cmap: map<int, nat>, frame: int): Step
    requires frame in cmap
  {
    Step(frame, InYear(ds, frame), cmap[frame], Tally(ds, frame))
  }

  /** The frame list `years[1:]`, each frame drawn by `update`. */
  function Schedule(ds: seq<Dated>, years: seq<int>, cmap: map<int, nat>): (frames: seq<Step>)
    requires |years| >= 1
    requires forall i :: 0 <= i < |years| ==> years[i] in cmap
    ensures |frames| == |years| - 1
    ensures forall k :: 0 <= k < |frames| ==> frames[k] == Update(ds, cmap, years[k + 1])
    // over ascending years the frames ascend ...
    ensures StrictlyAscending(years) ==>
              forall k, l :: 0 <= k < l < |frames| ==> frames[k].year < frames[l].year
    // ... and they show exactly the years after the first
    ensures forall y :: (exists k :: 0 <= k < |frames| && frames[k].year == y) <==> y in years[1..]
    // a frame draws only records of its own year
    ensures forall k, d :: 0 <= k < |frames| && d in frames[k].drawn ==> d.year == frames[k].year
  {
    var frames := seq(|years| - 1, k requires 0 <= k < |years| - 1 => Update(ds, cmap, years[k + 1]));
    assert forall y :: (exists k :: 0 <= k < |frames| && frames[k].year == y) <==> y in years[1..] by {
      forall y | y in years[1..] ensures exists k :: 0 <= k < |frames| && frames[k].year == y {
        var i :| 0 <= i < |years[1..]| && years[1..][i] == y;
        assert frames[i].year == y;
      }
    }
    frames
  }

  /** `FuncAnimation(fig, update, frames=years[1:], init_func=init)`. */
  function Animate(ds: seq<Dated>): (r: Result<Movie>)
    ensures r.Ok? <==> |DistinctYears(YearsOf(ds))| >= 2
    ensures r.Err? ==> r.error == TooFewYears(|DistinctYears(YearsOf(ds))|)
    ensures r.Ok? ==> r.value.years == DistinctYears(YearsOf(ds))
    ensures r.Ok? ==> |r.value.frames| == |r.value.years| - 1
    ensures r.Ok? ==> forall k :: 0 <= k < |r.value.frames| ==> r.value.frames[k].year == r.value.years[k + 1]
  {
    var years := DistinctYears(YearsOf(ds));
    if |years| < 2 then Err(TooFewYears(|years|))
    else
      var cmap := ColourTable(years);
      Ok(Movie(years, Init(ds, years, cmap), Schedule(ds, years, cmap)))
  }

  // ---- Properties of a produced animation ---------------------------------

  /** The shape of a produced animation over `ds`, with the colour table
      resolved to gradient positions: `years` are the distinct record years
      in ascending order, `init` draws everything up to `years[1]` in the
      first colour, and frame `k` draws year `years[k + 1]` in colour
      `k + 1`. */
  ghost predicate Shaped(ds: seq<Dated>, m: Movie)
  {
    YearsOfRecords(ds, m.years) && StepsOverYears(ds, m)
  }

  /** `years` are at least two ascending years, exactly those of the records. */
  ghost predicate YearsOfRecords(ds: seq<Dated>, years: seq<int>)
  {
    && |years| >= 2
    && StrictlyAscending(years)
    && (forall i :: 0 <= i < |ds| ==> ds[i].year in years)
    && (forall k :: 0 <= k < |years| ==> years[k] in YearsOf(ds))
  }

  /** `init` and one frame per year after the first, each in its colour. */
  ghost predicate StepsOverYears(ds: seq<Dated>, m: Movie)
    requires |m.years| >= 2
  {
    var n := |m.years|;
    && |m.frames| == n - 1
    && m.init == Step(m.years[0], UpTo(ds, m.years[1]), 0, Tally(ds, m.years[1]))
    && forall k :: 0 <= k < n - 1 ==>
         m.frames[k] == Step(m.years[k + 1], InYear(ds, m.years[k + 1]), k + 1, Tally(ds, m.years[k + 1]))
  }

  /** `init` and the frames with each year's colour looked up in `cmap`. */
  lemma {:induction false} ColouredSchedule(ds: seq<Dated>, years: seq<int>)
    requires StrictlyAscending(years) && |years| >= 2
    ensures Init(ds, years, ColourTable(years))
            == Step(years[0], UpTo(ds, years[1]), 0, Tally(ds, years[1]))
    ensures forall k :: 0 <= k < |years| - 1 ==>
              Schedule(ds, years, ColourTable(years))[k]
              == Step(years[k + 1], InYear(ds, years[k + 1]), k + 1, Tally(ds, years[k + 1]))
  {
    var cmap := ColourTable(years);
    assert cmap[years[0]] == 0;
    forall k | 0 <= k < |years| - 1
      ensures Schedule(ds, years, cmap)[k]
              == Step(years[k + 1], InYear(ds, years[k + 1]), k + 1, Tally(ds, years[k + 1]))
    {
      assert cmap[years[k + 1]] == k + 1;
    }
  }

  /** Every animation `Animate` produces has that shape. */
  lemma {:induction false} AnimateShaped(ds: seq<Dated>)
    requires Animate(ds).Ok?
    ensures Shaped(ds, Animate(ds).value)
  {
    var years := DistinctYears(YearsOf(ds));
    YearsCoverRecords(ds);
    ScheduleShaped(ds, years);
    AnimateValue(ds);
  }

  /** A produced animation is `init` and the schedule over the distinct years. */
  lemma {:induction false} AnimateValue(ds: seq<Dated>)
    requires Animate(ds).Ok?
    ensures var years := DistinctYears(YearsOf(ds));
            Animate(ds).value == Movie(years, Init(ds, years, ColourTable(years)), Schedule(ds, years, ColourTable(years)))
  {
  }

  /** Built over ascending years that are exactly the record years, `init`
      and the schedule have the shape every animation has. */
  lemma {:induction false} ScheduleShaped(ds: seq<Dated>, years: seq<int>)
    requires StrictlyAscending(years) && |years| >= 2
    requires forall i :: 0 <= i < |ds| ==> ds[i].year in years
    requires forall k :: 0 <= k < |years| ==> years[k] in YearsOf(ds)
    ensures Shaped(ds, Movie(years, Init(ds, years, ColourTable(years)), Schedule(ds, years, ColourTable(years))))
  {
    ColouredSchedule(ds, years);
  }

  /** No record year lies strictly between two consecutive frame years. */
  lemma {:induction false} NoYearBetween(ds: seq<Dated>, m: Movie, k: int)
    requires Shaped(ds, m)
    requires 0 <= k < |m.years| - 1
    ensures forall i :: 0 <= i < |ds| ==> !(m.years[k] < ds[i].year < m.years[k + 1])
  {
    forall i | 0 <= i < |ds| ensures !(m.years[k] < ds[i].year < m.years[k + 1]) {
      assert ds[i].year in m.years;
    }
  }

  /** Frames run over the distinct years after the first, in ascending
      order, and the first frame is the year `init` already covers. */
  lemma {:induction false} FramesAscending(ds: seq<Dated>, m: Movie)
    requires Shaped(ds, m)
    ensures m.init.text.cutoff == m.years[1] == m.frames[0].year
    ensures forall k, l :: 0 <= k < l < |m.frames| ==> m.frames[k].year < m.frames[l].year
  {
  }

  /** Each frame draws exactly the records of its own year, and `init`
      draws exactly those up to the second year. */
  lemma {:induction false} FramesDrawTheirYear(ds: seq<Dated>, m: Movie)
    requires Shaped(ds, m)
    ensures forall d :: d in m.init.drawn <==> d in ds && d.year <= m.years[1]
    ensures forall k, d :: 0 <= k < |m.frames| ==>
              (d in m.frames[k].drawn <==> d in ds && d.year == m.frames[k].year)
  {
    SelectionMembers(ds, m.years[1]);
    forall k | 0 <= k < |m.frames|
      ensures forall d :: d in m.frames[k].drawn <==> d in ds && d.year == m.frames[k].year
    {
      SelectionMembers(ds, m.frames[k].year);
    }
  }

  /** Every record is drawn: by `init` when it is built up to the second
      year, otherwise by the frame of its own year. */
  lemma {:induction false} EveryRecordDrawn(ds: seq<Dated>, m: Movie, i: int)
    requires Shaped(ds, m)
    requires 0 <= i < |ds|
    ensures Rank(m.years, ds[i].year).Some?
    ensures ds[i].year <= m.years[1] ==> ds[i] in m.init.drawn
    ensures ds[i].year > m.years[1] ==>
              var k := Rank(m.years, ds[i].year).value - 1;
              0 <= k < |m.frames| && ds[i] in m.frames[k].drawn
  {
    FramesDrawTheirYear(ds, m);
    assert ds[i].year in m.years;
    var r := Rank(m.years, ds[i].year).value;
    assert ds[i].year > m.years[1] ==> r > 1 by {
      assert r <= 1 ==> m.years[r] <= m.years[1];
    }
  }

  /** `init` uses the first colour of the gradient and each frame the
      colour `colorize` assigns its year; the frames' colours therefore move
      strictly along the gradient (see `MixIncreasing`). */
  lemma {:induction false} FrameColours(ds: seq<Dated>, m: Movie)
    requires Shaped(ds, m)
    ensures m.init.colour == 0
    ensures forall k :: 0 <= k < |m.frames| ==>
              m.frames[k].colour < |m.years| && m.frames[k].colour == Rank(m.years, m.frames[k].year).value
    ensures forall k, l :: 0 <= k < l < |m.frames| ==> m.frames[k].colour < m.frames[l].colour
  {
    forall k | 0 <= k < |m.frames|
      ensures m.frames[k].colour == Rank(m.years, m.frames[k].year).value
    {
      RankOfPosition(m.years, k + 1);
    }
  }

  /** The count shown strictly increases from frame to frame, and the
      cumulative length never decreases; the first frame repeats the totals
      `init` shows. */
  lemma {:induction false} FrameTotalsGrow(ds: seq<Dated>, m: Movie)
    requires Shaped(ds, m)
    ensures m.frames[0].text == m.init.text
    ensures forall k, l :: 0 <= k < l < |m.frames| ==>
              m.frames[k].text.tracks < m.frames[l].text.tracks
              && m.frames[k].text.metres <= m.frames[l].text.metres
  {
    forall k, l | 0 <= k < l < |m.frames|
      ensures m.frames[k].text.tracks < m.frames[l].text.tracks
      ensures m.frames[k].text.metres <= m.frames[l].text.metres
    {
      TallyGrows(ds, m.years[k + 1], m.years[l + 1]);
    }
  }

  /** Moving the cutoff up to a later year that some record carries adds at
      least that record. */
  lemma {:induction false} TallyGrows(ds: seq<Dated>, a: int, b: int)
    requires a < b
    requires b in YearsOf(ds)
    ensures Tally(ds, a).tracks < Tally(ds, b).tracks
    ensures Tally(ds, a).metres <= Tally(ds, b).metres
  {
    UpToMonotone(ds, a, b - 1);
    UpToStep(ds, b - 1, b);
    var i :| 0 <= i < |ds| && YearsOf(ds)[i] == b;
    InYearNonEmpty(ds, i);
  }

  /** Between consecutive frames the count grows by the number of records
      drawn in the later frame and the length by exactly their length. */
  lemma {:induction false} FrameStep(ds: seq<Dated>, m: Movie, k: int)
    requires Shaped(ds, m)
    requires 0 <= k < |m.frames| - 1
    ensures m.frames[k + 1].text.tracks == m.frames[k].text.tracks + |m.frames[k + 1].drawn|
    ensures m.frames[k + 1].text.metres == m.frames[k].text.metres + TotalLength(m.frames[k + 1].drawn)
  {
    NoYearBetween(ds, m, k + 1);
    UpToStep(ds, m.years[k + 1], m.years[k + 2]);
  }

  /** No record is younger than the last frame year. */
  lemma {:induction false} YearsUpToLast(ds: seq<Dated>, m: Movie)
    requires Shaped(ds, m)
    ensures forall i :: 0 <= i < |ds| ==> ds[i].year <= m.years[|m.years| - 1]
  {
    var last := m.years[|m.years| - 1];
    forall i | 0 <= i < |ds| ensures ds[i].year <= last {
      var j :| 0 <= j < |m.years| && m.years[j] == ds[i].year;
      assert j == |m.years| - 1 || m.years[j] < last;
    }
  }

  /** At the last frame the label counts every record and their whole
      length: no record is left out by the year comparison. */
  lemma {:induction false} LastFrameTotals(ds: seq<Dated>, m: Movie)
    requires Shaped(ds, m)
    ensures m.frames[|m.frames| - 1].text == Label(m.years[|m.years| - 1], |ds|, TotalLength(ds))
  {
    var last := m.years[|m.years| - 1];
    YearsUpToLast(ds, m);
    UpToAll(ds, last);
    assert m.frames[|m.frames| - 1].text == Tally(ds, last);
  }

  /** The lengths drawn by the frames after the first, which add what `init`
      has not yet drawn. */
  function DrawnAfterFirst(frames: seq<Step>): nat
  {
    if |frames| <= 1 then 0
    else DrawnAfterFirst(frames[..|frames| - 1]) + TotalLength(frames[|frames| - 1].drawn)
  }

  /** Telescoping: when every step adds exactly what it draws, the last
      label is the first plus everything drawn after the first step. */
  lemma {:induction false} Telescope(frames: seq<Step>)
    requires |frames| >= 1
    requires forall k :: 0 <= k < |frames| - 1 ==>
               frames[k + 1].text.metres == frames[k].text.metres + TotalLength(frames[k + 1].drawn)
    ensures frames[|frames| - 1].text.metres == frames[0].text.metres + DrawnAfterFirst(frames)
  {
    if |frames| > 1 {
      Telescope(frames[..|frames| - 1]);
    }
  }

  /** What `init` draws plus what the frames after the first draw sums to
      the length of the whole dataset: the additive reveal covers every
      record once (the first frame only redraws its year in its own colour). */
  lemma {:induction false} DrawnAddsUp(ds: seq<Dated>, m: Movie)
    requires Shaped(ds, m)
    ensures TotalLength(m.init.drawn) + DrawnAfterFirst(m.frames) == TotalLength(ds)
  {
    forall k | 0 <= k < |m.frames| - 1
      ensures m.frames[k + 1].text.metres == m.frames[k].text.metres + TotalLength(m.frames[k + 1].drawn)
    {
      FrameStep(ds, m, k);
    }
    Telescope(m.frames);
    FrameTotalsGrow(ds, m);
    LastFrameTotals(ds, m);
  }

  /** With exactly two distinct years there is a single frame: `init`
      draws everything up to the second year in the first colour, and the
      frame redraws that year's records in the second colour with the same
      totals. */
  lemma {:induction false} TwoYears(ds: seq<Dated>, m: Movie)
    requires Shaped(ds, m) && |m.years| == 2
    ensures m.init == Step(m.years[0], UpTo(ds, m.years[1]), 0, Tally(ds, m.years[1]))
    ensures m.frames == [Step(m.years[1], InYear(ds, m.years[1]), 1, Tally(ds, m.years[1]))]
  {
    assert m.frames == [m.frames[0]];
  }

  /** The selections of the three-lane example below. */
  lemma {:induction false} ThreeLaneSelections(ds: seq<Dated>, g1: Geometry, g2: Geometry, g3: Geometry)
    requires ds == [Dated(g1, 2001, 100), Dated(g2, 2003, 200), Dated(g3, 2003, 300)]
    ensures UpTo(ds, 2001) == ds[..1]
    ensures UpTo(ds, 2003) == ds && InYear(ds, 2003) == ds[1..]
  {
    var t := ds[1..];
    assert t == [ds[1]] + [ds[2]] && ds == [ds[0]] + t && [ds[2]] == [ds[2]] + [];
    SelectCons(ds[2], [], 2001);
    SelectCons(ds[1], [ds[2]], 2001);
    SelectCons(ds[0], t, 2001);
    SelectCons(ds[2], [], 2003);
    SelectCons(ds[1], [ds[2]], 2003);
    SelectCons(ds[0], t, 2003);
  }

  /** The totals of the three-lane example below. */
  lemma {:induction false} ThreeLaneTotals(ds: seq<Dated>, g1: Geometry, g2: Geometry, g3: Geometry)
    requires ds == [Dated(g1, 2001, 100), Dated(g2, 2003, 200), Dated(g3, 2003, 300)]
    ensures Tally(ds, 2001) == Label(2001, 1, 100)
    ensures Tally(ds, 2003) == Label(2003, 3, 600)
  {
    ThreeLaneSelections(ds, g1, g2, g3);
    var t := ds[1..];
    assert t == [ds[1]] + [ds[2]] && ds == [ds[0]] + t && [ds[2]] == [ds[2]] + [] && ds[..1] == [ds[0]] + [];
    SelectCons(ds[0], [], 2001);
    SelectCons(ds[2], [], 2003);
    SelectCons(ds[1], [ds[2]], 2003);
    SelectCons(ds[0], t, 2003);
  }

  /** The distinct years of the three-lane example below. */
  lemma {:induction false} ThreeLaneYears(ds: seq<Dated>, g1: Geometry, g2: Geometry, g3: Geometry)
    requires ds == [Dated(g1, 2001, 100), Dated(g2, 2003, 200), Dated(g3, 2003, 300)]
    ensures DistinctYears(YearsOf(ds)) == [2001, 2003]
  {
    assert YearsOf(ds) == [2001, 2003, 2003];
    assert DistinctYears([2001]) == [2001] by {
      assert [2001][..0] == [];
    }
    assert DistinctYears([2001, 2003]) == [2001, 2003] by {
      assert [2001, 2003][..1] == [2001];
      assert [2001][1..] == [];
    }
    assert [2001, 2003, 2003][..2] == [2001, 2003];
    assert [2001, 2003][1..] == [2003];
  }

  /** Three lanes built in 2001 (100 m) and 2003 (200 m and 300 m): two
      distinct years, 100 m up to 2001, and three lanes with 600 m up to
      2003, which `init` already shows and the single frame repeats while
      drawing the two 2003 lanes in the second colour. */
  lemma {:induction false} ThreeLanes(ds: seq<Dated>, g1: Geometry, g2: Geometry, g3: Geometry)
    requires ds == [Dated(g1, 2001, 100), Dated(g2, 2003, 200), Dated(g3, 2003, 300)]
    ensures Animate(ds) == Ok(Movie([2001, 2003],
                                    Step(2001, ds, 0, Label(2003, 3, 600)),
                                    [Step(2003, ds[1..], 1, Label(2003, 3, 600))]))
  {
    ThreeLaneYears(ds, g1, g2, g3);
    AnimateShaped(ds);
    TwoYears(ds, Animate(ds).value);
    ThreeLaneSelections(ds, g1, g2, g3);
    ThreeLaneTotals(ds, g1, g2, g3);
  }
}

=== FILE: dedup.dfy ===
/**
 * Removal of duplicate geometries, keeping the last occurrence
 * (`drop_duplicates(subset="geometry", keep="last")`).
 *
 * A record survives exactly when no later record has the same geometry; the
 * survivors keep their input order.
 */
module Dedup {
  import opened Records

  /** The geometries present in `rs`. */
  function Geometries(rs: seq<Record>): set<Geometry>
  {
    set r | r in rs :: r.geometry
  }

  /** No two records share a geometry. */
  predicate GeometryUnique(rs: seq<Record>)
  {
    forall i, j :: 0 <= i < j < |rs| ==> rs[i].geometry != rs[j].geometry
  }

  /** Position of the last record of `rs` with geometry `g`, or -1 when there
      is none. This is the reference definition of "the one seen last". */
  function LastIndex(rs: seq<Record>, g: Geometry): (k: int)
    ensures -1 <= k < |rs|
    ensures k >= 0 ==> rs[k].geometry == g
  {
    if |rs| == 0 then -1
    else if rs[|rs|-1].geometry == g then |rs| - 1
    else LastIndex(rs[..|rs|-1], g)
  }

  /** No record after that position carries the geometry, so it is indeed
      the last one, and -1 means the geometry does not occur. */
  lemma {:induction false} LastIndexIsLast(rs: seq<Record>, g: Geometry)
    ensures forall j :: LastIndex(rs, g) < j < |rs| ==> rs[j].geometry != g
  {
    if |rs| > 0 && rs[|rs| - 1].geometry != g {
      var p := rs[..|rs| - 1];
      LastIndexIsLast(p, g);
      forall j | LastIndex(rs, g) < j < |rs| ensures rs[j].geometry != g {
        if j < |rs| - 1 {
          assert rs[j] == p[j];
        }
      }
    }
  }

  /** The geometries of a non-empty input: the head's and the tail's. */
  lemma {:induction false} GeometriesCons(rs: seq<Record>)
    requires |rs| > 0
    ensures Geometries(rs) == {rs[0].geometry} + Geometries(rs[1..])
  {
    assert rs == [rs[0]] + rs[1..];
  }

  /** Dropping the head shifts the last index of a geometry that occurs again
      later by one, and the head's geometry, if it does not occur again, is
      last at position 0. */
  lemma {:induction false} LastIndexCons(rs: seq<Record>, g: Geometry)
    requires |rs| > 0
    ensures g in Geometries(rs[1..]) ==> LastIndex(rs, g) == LastIndex(rs[1..], g) + 1
    ensures g !in Geometries(rs[1..]) && rs[0].geometry == g ==> LastIndex(rs, g) == 0
  {
    var t := rs[1..];
    var k := LastIndex(rs, g);
    LastIndexIsLast(rs, g);
    LastIndexIsLast(t, g);
    if g in Geometries(t) {
      var r :| r in t && r.geometry == g;
      var i :| 0 <= i < |t| && t[i] == r;
      assert rs[i + 1] == r;
      var k' := LastIndex(t, g);
      assert k' >= 0;
      assert rs[k' + 1].geometry == g;
      assert k >= 1;
      assert t[k - 1].geometry == g;
    }
  }

  /** The tail's survivors, which are last in the tail, are last in the
      whole input too, and stay in order. */
  lemma {:induction false} KeptFromTail(rs: seq<Record>, rest: seq<Record>)
    requires |rs| > 0
    requires |rest| <= |rs| - 1
    requires GeometryUnique(rest)
    requires Geometries(rest) == Geometries(rs[1..])
    requires forall k :: 0 <= k < |rest| ==>
               0 <= LastIndex(rs[1..], rest[k].geometry) && rs[1..][LastIndex(rs[1..], rest[k].geometry)] == rest[k]
    requires forall i, j :: 0 <= i < j < |rest| ==>
               LastIndex(rs[1..], rest[i].geometry) < LastIndex(rs[1..], rest[j].geometry)
    ensures forall k :: 0 <= k < |rest| ==>
              0 <= LastIndex(rs, rest[k].geometry) && rs[LastIndex(rs, rest[k].geometry)] == rest[k]
    ensures forall i, j :: 0 <= i < j < |rest| ==>
              LastIndex(rs, rest[i].geometry) < LastIndex(rs, rest[j].geometry)
  {
    var t := rs[1..];
    forall k | 0 <= k < |rest|
      ensures LastIndex(rs, rest[k].geometry) == LastIndex(t, rest[k].geometry) + 1
      ensures rs[LastIndex(rs, rest[k].geometry)] == rest[k]
    {
      var g := rest[k].geometry;
      assert rest[k] in rest && g in Geometries(t);
      LastIndexCons(rs, g);
      assert rs[LastIndex(t, g) + 1] == t[LastIndex(t, g)];
    }
  }

  /** Keeping the head in front of the tail's survivors, when the head's
      geometry does not occur again, keeps the geometries unique and loses
      none. */
  lemma {:induction false} HeadKeepsUnique(rs: seq<Record>, rest: seq<Record>)
    requires |rs| > 0
    requires rs[0].geometry !in Geometries(rs[1..])
    requires GeometryUnique(rest)
    requires Geometries(rest) == Geometries(rs[1..])
    ensures GeometryUnique([rs[0]] + rest)
    ensures Geometries([rs[0]] + rest) == Geometries(rs)
  {
    var r := [rs[0]] + rest;
    assert rs == [rs[0]] + rs[1..];
    assert Geometries(rs) == {rs[0].geometry} + Geometries(rs[1..]);
    assert Geometries(r) == {rs[0].geometry} + Geometries(rest);
    forall i, j | 0 <= i < j < |r|
      ensures r[i].geometry != r[j].geometry
    {
      assert r[j] == rest[j - 1] && rest[j - 1] in rest;
      if i > 0 {
        assert r[i] == rest[i - 1];
      }
    }
  }

  /** A head whose geometry does not occur again is last at position 0. */
  lemma {:induction false} HeadLast(rs: seq<Record>)
    requires |rs| > 0 && rs[0].geometry !in Geometries(rs[1..])
    ensures LastIndex(rs, rs[0].geometry) == 0
  {
    LastIndexCons(rs, rs[0].geometry);
  }

  /** The tail's survivors are last at positions after the head. */
  lemma {:induction false} SurvivorsAfterHead(rs: seq<Record>, rest: seq<Record>)
    requires |rs| > 0
    requires rs[0].geometry !in Geometries(rs[1..])
    requires Geometries(rest) == Geometries(rs[1..])
    requires forall k :: 0 <= k < |rest| ==> 0 <= LastIndex(rs, rest[k].geometry)
    ensures forall k :: 0 <= k < |rest| ==> LastIndex(rs, rest[k].geometry) > 0
  {
    forall k | 0 <= k < |rest| ensures LastIndex(rs, rest[k].geometry) > 0 {
      assert rest[k] in rest;
      assert rest[k].geometry in Geometries(rs[1..]);
    }
  }

  /** In the same situation, the head is the last record with its geometry,
      and the tail's survivors stay the last records with theirs. */
  lemma {:induction false} HeadKeepsLast(rs: seq<Record>, rest: seq<Record>)
    requires |rs| > 0
    requires rs[0].geometry !in Geometries(rs[1..])
    requires forall k :: 0 <= k < |rest| ==>
               0 <= LastIndex(rs, rest[k].geometry) && rs[LastIndex(rs, rest[k].geometry)] == rest[k]
    ensures var r := [rs[0]] + rest;
      forall k :: 0 <= k < |r| ==>
        0 <= LastIndex(rs, r[k].geometry) && rs[LastIndex(rs, r[k].geometry)] == r[k]
  {
    var r := [rs[0]] + rest;
    LastIndexCons(rs, rs[0].geometry);
    forall k | 0 <= k < |r|
      ensures 0 <= LastIndex(rs, r[k].geometry) && rs[LastIndex(rs, r[k].geometry)] == r[k]
    {
      if k > 0 {
        assert r[k] == rest[k - 1];
      }
    }
  }

  /** ... and comes before every other survivor. */
  lemma {:induction false} HeadKeepsOrder(rs: seq<Record>, rest: seq<Record>)
    requires |rs| > 0
    requires rs[0].geometry !in Geometries(rs[1..])
    requires Geometries(rest) == Geometries(rs[1..])
    requires forall k :: 0 <= k < |rest| ==> 0 <= LastIndex(rs, rest[k].geometry)
    requires forall i, j :: 0 <= i < j < |rest| ==>
               LastIndex(rs, rest[i].geometry) < LastIndex(rs, rest[j].geometry)
    ensures var r := [rs[0]] + rest;
      forall i, j :: 0 <= i < j < |r| ==>
        LastIndex(rs, r[i].geometry) < LastIndex(rs, r[j].geometry)
  {
    var r := [rs[0]] + rest;
    HeadLast(rs);
    SurvivorsAfterHead(rs, rest);
    forall i, j | 0 <= i < j < |r|
      ensures LastIndex(rs, r[i].geometry) < LastIndex(rs, r[j].geometry)
    {
      assert r[j] == rest[j - 1];
      if i > 0 {
        assert r[i] == rest[i - 1];
      }
    }
  }

  /** The deduplicated dataset. */
  function KeepLast(rs: seq<Record>): (r: seq<Record>)
    ensures |r| <= |rs|
    ensures GeometryUnique(r)
    ensures Geometries(r) == Geometries(rs)
    // every survivor is the last input record with its geometry ...
    ensures forall k :: 0 <= k < |r| ==>
              0 <= LastIndex(rs, r[k].geometry) && rs[LastIndex(rs, r[k].geometry)] == r[k]
    // ... and the survivors keep their relative input order
    ensures forall i, j :: 0 <= i < j < |r| ==>
              LastIndex(rs, r[i].geometry) < LastIndex(rs, r[j].geometry)
  {
    if |rs| == 0 then []
    else
      var rest := KeepLast(rs[1..]);
      KeptFromTail(rs, rest);
      GeometriesCons(rs);
      if rs[0].geometry in Geometries(rs[1..]) then
        rest
      else
        HeadKeepsUnique(rs, rest);
        HeadKeepsLast(rs, rest);
        HeadKeepsOrder(rs, rest);
        [rs[0]] + rest
  }

  /** The tail of rows with unique geometries has unique geometries, none
      of them the head's. */
  lemma {:induction false} UniqueTail(rs: seq<Record>)
    requires |rs| > 0 && GeometryUnique(rs)
    ensures GeometryUnique(rs[1..])
    ensures rs[0].geometry !in Geometries(rs[1..])
  {
    var t := rs[1..];
    forall i, j | 0 <= i < j < |t| ensures t[i].geometry != t[j].geometry {
      assert t[i] == rs[i + 1] && t[j] == rs[j + 1];
    }
    forall r | r in t ensures r.geometry != rs[0].geometry {
      var k :| 0 <= k < |t| && t[k] == r;
      assert r == rs[k + 1];
    }
  }

  /** A head whose geometry does not occur again survives in front of the
      tail's survivors. */
  lemma {:induction false} KeepLastCons(rs: seq<Record>)
    requires |rs| > 0 && rs[0].geometry !in Geometries(rs[1..])
    ensures KeepLast(rs) == [rs[0]] + KeepLast(rs[1..])
  {
  }

  /** Duplicate removal never empties a non-empty input. */
  lemma {:induction false} KeepLastEmpty(rs: seq<Record>)
    ensures |KeepLast(rs)| == 0 <==> |rs| == 0
  {
    if |rs| > 0 {
      assert rs[0] in rs;
      assert rs[0].geometry in Geometries(KeepLast(rs));
    }
  }

  /** Input that already has unique geometries is left unchanged. */
  lemma {:induction false} KeepLastOfUnique(rs: seq<Record>)
    requires GeometryUnique(rs)
    ensures KeepLast(rs) == rs
  {
    if |rs| > 0 {
      UniqueTail(rs);
      KeepLastOfUnique(rs[1..]);
      KeepLastCons(rs);
      assert rs == [rs[0]] + rs[1..];
    }
  }

  /** Removing duplicates a second time changes nothing. */
  lemma {:induction false} KeepLastIdempotent(rs: seq<Record>)
    ensures KeepLast(KeepLast(rs)) == KeepLast(rs)
  {
    KeepLastOfUnique(KeepLast(rs));
  }

  /** The in-place pass: walk from the back, keep a record when its geometry
      has not been seen yet. */
  method DropDuplicates(rs: seq<Record>) returns (r: seq<Record>)
    ensures r == KeepLast(rs)
  {
    r := [];
    var seen: set<Geometry> := {};
    var i := |rs|;
    while i > 0
      invariant 0 <= i <= |rs|
      invariant r == KeepLast(rs[i..])
      invariant seen == Geometries(rs[i..])
    {
      i := i - 1;
      assert rs[i..][1..] == rs[i + 1..];
      assert Geometries(rs[i..]) == {rs[i].geometry} + seen by {
        assert rs[i..] == [rs[i]] + rs[i + 1..];
      }
      if rs[i].geometry !in seen {
        r := [rs[i]] + r;
      }
      seen := seen + {rs[i].geometry};
    }
    assert rs[0..] == rs;
  }

  /** Two records with the same geometry collapse to the later one. */
  lemma {:induction false} LaterDuplicateSurvives(g: Geometry, first: string, second: string, a: nat, b: nat)
    ensures KeepLast([Record(g, first, a), Record(g, second, b)]) == [Record(g, second, b)]
  {
    var rs := [Record(g, first, a), Record(g, second, b)];
    assert rs[1..] == [Record(g, second, b)];
    assert g in Geometries(rs[1..]);
    assert KeepLast(rs[1..][1..]) == [];
  }

  /** Rows with the same geometries position by position have the same
      geometry set. */
  lemma {:induction false} SameGeometries(a: seq<Record>, b: seq<Record>)
    requires |a| == |b|
    requires forall k :: 0 <= k < |a| ==> a[k].geometry == b[k].geometry
    ensures Geometries(a) == Geometries(b)
  {
    forall r | r in a ensures r.geometry in Geometries(b) {
      var k :| 0 <= k < |a| && a[k] == r;
      assert b[k] in b;
    }
    forall r | r in b ensures r.geometry in Geometries(a) {
      var k :| 0 <= k < |b| && b[k] == r;
      assert a[k] in a;
    }
  }

  /** Only the survivors' attributes reach the result: replacing a record
      that a later one supersedes by any record with the same geometry
      changes nothing. */
  lemma {:induction false} KeepLastIgnoresSuperseded(rs: seq<Record>, i: int, r: Record)
    requires 0 <= i < |rs|
    requires rs[i].geometry in Geometries(rs[i + 1..])
    requires r.geometry == rs[i].geometry
    ensures KeepLast(rs[i := r]) == KeepLast(rs)
  {
    var t := rs[i := r];
    SameGeometries(t[1..], rs[1..]);
    if i == 0 {
      assert t[1..] == rs[1..];
    } else {
      assert t[1..] == rs[1..][i - 1 := r];
      assert rs[1..][i..] == rs[i + 1..];
      KeepLastIgnoresSuperseded(rs[1..], i - 1, r);
    }
  }
}

=== FILE: layout.dfy ===
/**
 * The map extent and the position of the running-total label.
 *
 * The extent is the bounding box of all geometries, widened on each side by
 * 3% of its width (left and right) or height (bottom and top), each margin
 * truncated to whole units by `int()`. The label is anchored 2% of the width
 * right of the widened box's left edge and 8% of the height below its bottom
 * edge. The same extent and anchor serve the static figure and every frame
 * of the animation.
 */
module Layout {
  import opened Records

  /** Margin on each side, in percent of the extent. */
  const MarginPercent: int := 3
  /** Horizontal inset of the label from the left edge, in percent of the width. */
  const InsetPercent: int := 2
  /** Drop of the label below the bottom edge, in percent of the height. */
  const DropPercent: int := 8

  datatype Box = Box(minx: real, miny: real, maxx: real, maxy: real)
  {
    function Width(): real { maxx - minx }
    function Height(): real { maxy - miny }
  }

  predicate Contains(b: Box, p: Point)
  {
    b.minx <= p.x <= b.maxx && b.miny <= p.y <= b.maxy
  }

  /** `outer` covers `inner`. */
  predicate Encloses(outer: Box, inner: Box)
  {
    outer.minx <= inner.minx && outer.miny <= inner.miny
    && inner.maxx <= outer.maxx && inner.maxy <= outer.maxy
  }

  /** Every vertex of every geometry of `ds` lies in `b`. */
  predicate CoversAll(b: Box, ds: seq<Dated>)
  {
    forall i, k :: 0 <= i < |ds| && 0 <= k < |ds[i].geometry.points| ==>
      Contains(b, ds[i].geometry.points[k])
  }

  /** Some geometry of `ds` has a vertex. */
  predicate HasVertex(ds: seq<Dated>)
  {
    exists i :: 0 <= i < |ds| && |ds[i].geometry.points| > 0
  }

  /** Python's `int()` of a float: truncation toward zero. */
  function Trunc(x: real): (r: int)
    ensures 0.0 <= x ==> 0 <= r && r as real <= x < r as real + 1.0
    ensures x < 0.0 ==> r <= 0 && r as real - 1.0 < x <= r as real
  {
    if x >= 0.0 then x.Floor else -((-x).Floor)
  }

  function Hull(a: Box, b: Box): (h: Box)
    ensures Encloses(h, a) && Encloses(h, b)
  {
    Box(if a.minx <= b.minx then a.minx else b.minx,
        if a.miny <= b.miny then a.miny else b.miny,
        if a.maxx >= b.maxx then a.maxx else b.maxx,
        if a.maxy >= b.maxy then a.maxy else b.maxy)
  }

  /** The bounds of one geometry; `None` (NaN in the source) when it has no
      vertex. */
  function GeometryBounds(ps: seq<Point>): (r: Option<Box>)
    ensures r.Some? <==> |ps| > 0
    ensures r.Some? ==> r.value.minx <= r.value.maxx && r.value.miny <= r.value.maxy
    ensures r.Some? ==> forall k :: 0 <= k < |ps| ==> Contains(r.value, ps[k])
  {
    if |ps| == 0 then None
    else
      var p := ps[0];
      var here := Box(p.x, p.y, p.x, p.y);
      match GeometryBounds(ps[1..])
      case None => Some(here)
      case Some(rest) =>
        assert forall k :: 1 <= k < |ps| ==> ps[k] == ps[1..][k - 1];
        Some(Hull(here, rest))
  }

  /** `geometry.bounds.min()` and `.max()` over all records; the NaN rows of
      empty geometries are skipped, and with no vertex at all the result is
      NaN, modelled as `None`. */
  function Bounds(ds: seq<Dated>): (r: Option<Box>)
    ensures r.Some? <==> HasVertex(ds)
    ensures r.Some? ==> r.value.minx <= r.value.maxx && r.value.miny <= r.value.maxy
    ensures r.Some? ==> CoversAll(r.value, ds)
  {
    if |ds| == 0 then None
    else
      var rest := Bounds(ds[1..]);
      assert forall i :: 1 <= i < |ds| ==> ds[i] == ds[1..][i - 1];
      assert HasVertex(ds) <==> |ds[0].geometry.points| > 0 || HasVertex(ds[1..]) by {
        if HasVertex(ds[1..]) {
          var i :| 0 <= i < |ds[1..]| && |ds[1..][i].geometry.points| > 0;
          assert |ds[i + 1].geometry.points| > 0;
        }
      }
      match GeometryBounds(ds[0].geometry.points)
      case None => rest
      case Some(here) =>
        match rest
        case None => Some(here)
        case Some(b) => Some(Hull(here, b))
  }

  /** The bounds are the smallest box covering every vertex. */
  lemma {:induction false} BoundsTight(ds: seq<Dated>, c: Box)
    requires HasVertex(ds)
    requires CoversAll(c, ds)
    ensures Encloses(c, Bounds(ds).value)
  {
    var d := ds[0];
    assert forall i :: 1 <= i < |ds| ==> ds[i] == ds[1..][i - 1];
    assert CoversAll(c, ds[1..]);
    var rest := Bounds(ds[1..]);
    if rest.Some? {
      BoundsTight(ds[1..], c);
    }
    if |d.geometry.points| > 0 {
      GeometryBoundsTight(d.geometry.points, c);
    }
  }

  lemma {:induction false} GeometryBoundsTight(ps: seq<Point>, c: Box)
    requires |ps| > 0
    requires forall k :: 0 <= k < |ps| ==> Contains(c, ps[k])
    ensures Encloses(c, GeometryBounds(ps).value)
  {
    if |ps| > 1 {
      assert forall k :: 1 <= k < |ps| ==> ps[k] == ps[1..][k - 1];
      GeometryBoundsTight(ps[1..], c);
    }
  }

  /** The axis limits and the label anchor derived from the bounds. */
  datatype View = View(limits: Box, tx: real, ty: real)

  /** The widened extent (the axis limits) and the label position. */
  function Extent(b: Box): (v: View)
    // each side moves outward by the truncated margin, the same on opposite sides
    ensures b.minx - v.limits.minx == v.limits.maxx - b.maxx
    ensures b.miny - v.limits.miny == v.limits.maxy - b.maxy
    ensures 0.0 <= b.Width() && 0.0 <= b.Height() ==> Encloses(v.limits, b)
    ensures 0.0 <= b.Width() ==>
              && b.minx - v.limits.minx <= b.Width() * MarginPercent as real / 100.0
                   < b.minx - v.limits.minx + 1.0
              && v.limits.minx <= v.tx
              && v.tx - v.limits.minx <= b.Width() * InsetPercent as real / 100.0
    ensures 0.0 <= b.Height() ==>
              && b.miny - v.limits.miny <= b.Height() * MarginPercent as real / 100.0
                   < b.miny - v.limits.miny + 1.0
              && v.ty <= v.limits.miny
              && v.limits.miny - v.ty <= b.Height() * DropPercent as real / 100.0
  {
    var mx := Trunc(b.Width() * MarginPercent as real / 100.0) as real;
    var my := Trunc(b.Height() * MarginPercent as real / 100.0) as real;
    var limits := Box(b.minx - mx, b.miny - my, b.maxx + mx, b.maxy + my);
    View(limits,
         limits.minx + Trunc(b.Width() * InsetPercent as real / 100.0) as real,
         limits.miny - Trunc(b.Height() * DropPercent as real / 100.0) as real)
  }

  /** The label anchor lies at or below every vertex of the data, so the
      label sits under the drawn network, and every vertex is inside the
      axis limits. */
  lemma {:induction false} AnchorBelowData(ds: seq<Dated>)
    requires HasVertex(ds)
    ensures var v := Extent(Bounds(ds).value);
      && CoversAll(v.limits, ds)
      && forall i, k :: 0 <= i < |ds| && 0 <= k < |ds[i].geometry.points| ==>
           v.ty <= ds[i].geometry.points[k].y
  {
    var b := Bounds(ds).value;
    var v := Extent(b);
    forall i, k | 0 <= i < |ds| && 0 <= k < |ds[i].geometry.points|
      ensures Contains(v.limits, ds[i].geometry.points[k])
      ensures v.ty <= ds[i].geometry.points[k].y
    {
      assert Contains(b, ds[i].geometry.points[k]);
    }
  }
}

=== FILE: pipeline.dfy ===
/**
 * The script end to end: load, drop duplicate geometries, derive the years,
 * sort the distinct years, attach the colour rank, compute the extent and
 * label anchor, caption the static figure with the year range, and build the
 * animation. The first failing step aborts the run with its error.
 */
module Pipeline {
  import opened Records
  import opened Dedup
  import opened Timestamp
  import opened YearIndex
  import opened Layout
  import opened Statistics
  import opened Animation

  /** `edf.VORGANGSZE.apply(yrs)`: every record gets its year, and the first
      malformed timestamp aborts the whole column. */
  function DateAll(rs: seq<Record>): (r: Result<seq<Dated>>)
    ensures r.Ok? <==> forall i :: 0 <= i < |rs| ==> Year(rs[i].finished).Ok?
    ensures r.Ok? ==> |r.value| == |rs|
    ensures r.Ok? ==> forall i :: 0 <= i < |rs| ==>
              r.value[i] == Dated(rs[i].geometry, Year(rs[i].finished).value, rs[i].length)
    ensures r.Err? ==> exists i :: 0 <= i < |rs| && FirstMalformed(rs, i)
                                   && r.error == MalformedTimestamp(rs[i].finished)
  {
    if |rs| == 0 then Ok([])
    else match Year(rs[0].finished)
      case Err(e) =>
        assert FirstMalformed(rs, 0);
        Err(e)
      case Ok(y) =>
        match DateAll(rs[1..])
        case Err(e) =>
          ShiftMalformed(rs, e);
          Err(e)
        case Ok(t) => Ok([Dated(rs[0].geometry, y, rs[0].length)] + t)
  }

  /** Record `i` is the first whose timestamp does not parse. */
  predicate FirstMalformed(rs: seq<Record>, i: int)
    requires 0 <= i < |rs|
  {
    Year(rs[i].finished).Err? && forall j :: 0 <= j < i ==> Year(rs[j].finished).Ok?
  }

  /** A first malformed timestamp among the rows after a well-formed first
      row is the first malformed one of all rows. */
  lemma {:induction false} ShiftMalformed(rs: seq<Record>, e: Error)
    requires 0 < |rs| && Year(rs[0].finished).Ok?
    requires exists i :: 0 <= i < |rs| - 1 && FirstMalformed(rs[1..], i)
                         && e == MalformedTimestamp(rs[1..][i].finished)
    ensures exists i :: 0 <= i < |rs| && FirstMalformed(rs, i)
                        && e == MalformedTimestamp(rs[i].finished)
  {
    var i :| 0 <= i < |rs| - 1 && FirstMalformed(rs[1..], i)
             && e == MalformedTimestamp(rs[1..][i].finished);
    forall j | 0 < j < i + 1 ensures Year(rs[j].finished).Ok? {
      assert rs[j] == rs[1..][j - 1];
    }
    assert rs[i + 1] == rs[1..][i];
    assert FirstMalformed(rs, i + 1);
  }

  /** `edf.year.apply(colorize)`: the colour rank of every record's year,
      `None` where `colorize` would raise IndexError. */
  function ColourColumn(ds: seq<Dated>, years: seq<int>): (r: Option<seq<nat>>)
    ensures r.Some? <==> forall i :: 0 <= i < |ds| ==> ds[i].year in years
    ensures r.Some? ==> |r.value| == |ds|
    ensures r.Some? ==> forall i :: 0 <= i < |ds| ==>
              r.value[i] < |years| && years[r.value[i]] == ds[i].year
  {
    if |ds| == 0 then Some([])
    else match Rank(years, ds[0].year)
      case None => None
      case Some(k) =>
        match ColourColumn(ds[1..], years)
        case None =>
          assert exists i :: 0 <= i < |ds[1..]| && ds[1..][i].year !in years;
          None
        case Some(t) =>
          assert forall i :: 1 <= i < |ds| ==> ds[i] == ds[1..][i - 1];
          Some([k] + t)
  }

  /** Everything the script computes before it renders. */
  datatype Outputs = Outputs(
    kept: seq<Record>,       // after drop_duplicates
    dated: seq<Dated>,       // edf with its year column
    years: seq<int>,         // sorted distinct years
    colours: seq<nat>,       // the color column
    bounds: Box,             // data bounds
    view: View,              // axis limits and label anchor
    first: int, last: int,  // caption of the static figure: years[0], years[-1]
    movie: Movie)            // init and the frames of the animation

  /** The first and last distinct years bound every record's year. */
  lemma {:induction false} YearRange(ds: seq<Dated>)
    requires |DistinctYears(YearsOf(ds))| > 0
    ensures var years := DistinctYears(YearsOf(ds));
      forall i :: 0 <= i < |ds| ==> years[0] <= ds[i].year <= years[|years| - 1]
  {
    var years := DistinctYears(YearsOf(ds));
    YearsCoverRecords(ds);
    forall i | 0 <= i < |ds| ensures years[0] <= ds[i].year <= years[|years| - 1] {
      var k :| 0 <= k < |years| && years[k] == ds[i].year;
    }
  }

  /** `edf["color"]` over the sorted distinct years; every year is found. */
  function Colours(ds: seq<Dated>): (c: seq<nat>)
    ensures |c| == |ds|
    ensures forall i :: 0 <= i < |ds| ==>
              c[i] < |DistinctYears(YearsOf(ds))| && DistinctYears(YearsOf(ds))[c[i]] == ds[i].year
  {
    YearsCoverRecords(ds);
    ColourColumn(ds, DistinctYears(YearsOf(ds))).value
  }

  /** The caption `years[0] - years[-1]` of the static figure: the earliest
      and the latest record year. */
  function Caption(ds: seq<Dated>): (c: (int, int))
    requires |DistinctYears(YearsOf(ds))| > 0
    ensures forall i :: 0 <= i < |ds| ==> c.0 <= ds[i].year <= c.1
    ensures c.0 in YearsOf(ds) && c.1 in YearsOf(ds)
  {
    var years := DistinctYears(YearsOf(ds));
    YearRange(ds);
    (years[0], years[|years| - 1])
  }

  /** The outputs once the bounds and the animation both exist. */
  function Assemble(kept: seq<Record>, ds: seq<Dated>, b: Box, m: Movie): (o: Outputs)
    requires |DistinctYears(YearsOf(ds))| > 0
    ensures o.kept == kept && o.dated == ds && o.movie == m
    ensures o.years == DistinctYears(YearsOf(ds))
    ensures |o.colours| == |ds|
    ensures forall i :: 0 <= i < |ds| ==> o.colours[i] < |o.years| && o.years[o.colours[i]] == ds[i].year
    ensures forall i :: 0 <= i < |ds| ==> o.first <= ds[i].year <= o.last
    ensures o.first in YearsOf(ds) && o.last in YearsOf(ds)
    ensures o.bounds == b && o.view == Extent(b)
  {
    var c := Caption(ds);
    Outputs(kept, ds, DistinctYears(YearsOf(ds)), Colours(ds), b, Extent(b), c.0, c.1, m)
  }

  /** What follows the year column, in the script's order: the colour
      list and its colormap (with no rows the run aborts at the latest
      here, where `from_list` reads the first entry of an empty list), the bounds (no vertex makes them NaN), the
      static figure (a single year gives a colormap without an end point at
      1, which raises when the figure is drawn), then the animation. */
  function Derive(kept: seq<Record>, ds: seq<Dated>): (r: Result<Outputs>)
    ensures r.Ok? <==> HasVertex(ds) && |DistinctYears(YearsOf(ds))| >= 2
    ensures r.Err? ==> r.error == (if |ds| == 0 then TooFewYears(0)
                                   else if HasVertex(ds) then TooFewYears(1)
                                   else NoBounds)
    ensures r.Ok? ==> r.value == Assemble(kept, ds, Bounds(ds).value, Animate(ds).value)
    ensures r.Ok? ==> CoversAll(r.value.view.limits, ds)
    ensures r.Ok? ==> Shaped(ds, r.value.movie)
  {
    var years := DistinctYears(YearsOf(ds));
    YearsCoverRecords(ds);
    assert |ds| > 0 ==> ds[0].year in years;
    if |years| == 0 then Err(TooFewYears(0))
    else match Bounds(ds)
      case None => Err(NoBounds)
      case Some(b) =>
        if |years| == 1 then Err(TooFewYears(1))
        else
          AnchorBelowData(ds);
          AnimateShaped(ds);
          Ok(Assemble(kept, ds, b, Animate(ds).value))
  }

  /** The year column is derived before anything else can fail: a
      malformed timestamp among `kept` aborts the run with the first
      malformed row's stamp, and only a malformed timestamp is reported as
      one. */
  predicate TimestampsFirst(kept: seq<Record>, r: Result<Outputs>)
  {
    && (DateAll(kept).Err? ==>
          exists i :: && 0 <= i < |kept| && FirstMalformed(kept, i)
                      && r == Err(MalformedTimestamp(kept[i].finished)))
    && (r.Err? && r.error.MalformedTimestamp? ==> DateAll(kept).Err?)
  }

  /** The script's computation over the loaded rows. */
  function Run(raw: seq<Record>): (r: Result<Outputs>)
    ensures r.Ok? <==>
              && DateAll(KeepLast(raw)).Ok?
              && HasVertex(DateAll(KeepLast(raw)).value)
              && |DistinctYears(YearsOf(DateAll(KeepLast(raw)).value))| >= 2
    // a bad timestamp aborts first, naming the first malformed kept row,
    // and nothing else is reported as one
    ensures TimestampsFirst(KeepLast(raw), r)
    // no rows at all is the only way to reach the colormap without a colour
    ensures r == Err(TooFewYears(0)) <==> |raw| == 0
    ensures r.Err? && r.error.TooFewYears? ==> r.error.distinct <= 1
    ensures r.Ok? ==> r.value.kept == KeepLast(raw) && |r.value.dated| == |r.value.kept|
    // a produced animation has the shape the frame lemmas of Animation describe
    ensures r.Ok? ==> Shaped(r.value.dated, r.value.movie)
  {
    KeepLastEmpty(raw);
    AfterCleanup(KeepLast(raw))
  }

  /** The script from the year column on, over the rows left after
      `drop_duplicates`. */
  function AfterCleanup(kept: seq<Record>): (r: Result<Outputs>)
    ensures r.Ok? <==>
              && DateAll(kept).Ok?
              && HasVertex(DateAll(kept).value)
              && |DistinctYears(YearsOf(DateAll(kept).value))| >= 2
    ensures TimestampsFirst(kept, r)
    ensures r == Err(TooFewYears(0)) <==> |kept| == 0
    ensures r.Err? && r.error.TooFewYears? ==> r.error.distinct <= 1
    ensures r.Ok? ==> r.value.kept == kept && |r.value.dated| == |kept|
    ensures r.Ok? ==> Shaped(r.value.dated, r.value.movie)
  {
    match DateAll(kept)
    case Err(e) => Err(e)
    case Ok(ds) => Derive(kept, ds)
  }

  /** Feeding the cleaned rows back in gives the same outputs. */
  lemma {:induction false} RunAfterCleanup(raw: seq<Record>)
    ensures Run(KeepLast(raw)) == Run(raw)
  {
    KeepLastIdempotent(raw);
  }

  /** The timestamp of a row that a later row with the same geometry
      supersedes is never parsed: even a malformed one does not abort the
      run, because duplicates are dropped before the years are derived. */
  lemma {:induction false} SupersededStampIgnored(raw: seq<Record>, i: int, stamp: string)
    requires 0 <= i < |raw|
    requires raw[i].geometry in Geometries(raw[i + 1..])
    ensures Run(raw[i := raw[i].(finished := stamp)]) == Run(raw)
  {
    KeepLastIgnoresSuperseded(raw, i, raw[i].(finished := stamp));
  }
}

=== FILE: records.dfy ===
/**
 * Entities of the bicycle-lane dataset and the failure-carrying wrappers the
 * rest of the model uses.
 *
 * A loaded row holds a polyline geometry, the textual timestamp at which its
 * construction process concluded, and its metric length. The reprojection to
 * the metric reference system and the geometric length computation belong to
 * an external geospatial library, so the length arrives here as a given
 * number of whole metres and the coordinates are already the metric ones.
 */
module Records {

  datatype Point = Point(x: real, y: real)

  /** A line feature: the sequence of its vertices (possibly empty). */
  datatype Geometry = Polyline(points: seq<Point>)

  /** One row as loaded, before the year has been derived. */
  datatype Record = Record(geometry: Geometry, finished: string, length: nat)

  /** One row after the construction year has been derived from `finished`. */
  datatype Dated = Dated(geometry: Geometry, year: int, length: nat)

  /** The ways the script aborts, each named by its cause.
      - `MalformedTimestamp`: `strptime` raises ValueError.
      - `NoBounds`: there are rows but no vertex, so the bounds are NaN and
        `int(NaN)` raises ValueError.
      - `TooFewYears(0)`: there are no rows. Loading or writing an empty
        layer may already fail; at the latest, the colour list is empty and
        building the colormap from it raises IndexError.
      - `TooFewYears(1)`: a single year gives a one-colour colormap, which
        raises ValueError when the static figure is drawn; `years[1]` in the
        animation's `init` would raise IndexError after it. */
  datatype Error =
    | MalformedTimestamp(stamp: string)
    | NoBounds
    | TooFewYears(distinct: nat)

  datatype Option<+T> = None | Some(value: T)

  datatype Result<+T> = Ok(value: T) | Err(error: Error)

  /** The years of the records, in record order. */
  function YearsOf(ds: seq<Dated>): (ys: seq<int>)
    ensures |ys| == |ds|
    ensures forall i :: 0 <= i < |ds| ==> ys[i] == ds[i].year
  {
    seq(|ds|, i requires 0 <= i < |ds| => ds[i].year)
  }

  /** Sum of the lengths of the records, in metres. */
  function TotalLength(ds: seq<Dated>): nat
  {
    if |ds| == 0 then 0 else ds[0].length + TotalLength(ds[1..])
  }
}

=== FILE: statistics.dfy ===
/**
 * The year-bucketed selections behind the running totals: the records built
 * up to a cutoff year (`edf[edf.year <= cutoff]`) and the records of one year
 * (`edf[edf.year == frame]`), with their count and summed length.
 *
 * The totals are recomputed from the whole dataset for every cutoff; the
 * lemmas relate the totals of different cutoffs.
 */
module Statistics {
  import opened Records

  /** The records with `year <= cutoff`, in dataset order. */
  function UpTo(ds: seq<Dated>, cutoff: int): (r: seq<Dated>)
    ensures |r| <= |ds|
    ensures forall k :: 0 <= k < |r| ==> r[k].year <= cutoff
    ensures forall d {:trigger d in r} :: d in r <==> d in ds && d.year <= cutoff
  {
    if |ds| == 0 then []
    else
      (if ds[0].year <= cutoff then [ds[0]] else []) + UpTo(ds[1..], cutoff)
  }

  /** The records with `year == y`, in dataset order. */
  function InYear(ds: seq<Dated>, y: int): (r: seq<Dated>)
    ensures |r| <= |ds|
    ensures forall k :: 0 <= k < |r| ==> r[k].year == y
    ensures forall d {:trigger d in r} :: d in r <==> d in ds && d.year == y
  {
    if |ds| == 0 then []
    else
      (if ds[0].year == y then [ds[0]] else []) + InYear(ds[1..], y)
  }

  /** The selections keep every matching record as many times as the
      dataset holds it, and nothing else. */
  lemma {:induction false} SelectionContents(ds: seq<Dated>, c: int)
    ensures forall d :: multiset(UpTo(ds, c))[d] == if d.year <= c then multiset(ds)[d] else 0
    ensures forall d :: multiset(InYear(ds, c))[d] == if d.year == c then multiset(ds)[d] else 0
  {
    UpToContents(ds, c);
    InYearContents(ds, c);
  }

  /** The first half of `SelectionContents`, by induction on the data. */
  lemma {:induction false} UpToContents(ds: seq<Dated>, c: int)
    ensures forall d :: multiset(UpTo(ds, c))[d] == if d.year <= c then multiset(ds)[d] else 0
  {
    if |ds| > 0 {
      UpToContents(ds[1..], c);
      assert ds == [ds[0]] + ds[1..];
    }
  }

  /** The second half of `SelectionContents`. */
  lemma {:induction false} InYearContents(ds: seq<Dated>, c: int)
    ensures forall d :: multiset(InYear(ds, c))[d] == if d.year == c then multiset(ds)[d] else 0
  {
    if |ds| > 0 {
      InYearContents(ds[1..], c);
      assert ds == [ds[0]] + ds[1..];
    }
  }

  /** Hence a record is selected exactly when it is in the dataset and its
      year qualifies. */
  lemma {:induction false} SelectionMembers(ds: seq<Dated>, c: int)
    ensures forall d :: d in UpTo(ds, c) <==> d in ds && d.year <= c
    ensures forall d :: d in InYear(ds, c) <==> d in ds && d.year == c
  {
    SelectionContents(ds, c);
    forall d ensures d in UpTo(ds, c) <==> d in ds && d.year <= c {
      assert d in UpTo(ds, c) <==> multiset(UpTo(ds, c))[d] > 0;
    }
    forall d ensures d in InYear(ds, c) <==> d in ds && d.year == c {
      assert d in InYear(ds, c) <==> multiset(InYear(ds, c))[d] > 0;
    }
  }

  /** One record followed by the rest: the record is selected on its own
      merits, ahead of the selection from the rest. */
  lemma {:induction false} SelectCons(d: Dated, rest: seq<Dated>, c: int)
    ensures UpTo([d] + rest, c) == (if d.year <= c then [d] else []) + UpTo(rest, c)
    ensures InYear([d] + rest, c) == (if d.year == c then [d] else []) + InYear(rest, c)
    ensures TotalLength([d] + rest) == d.length + TotalLength(rest)
  {
    assert ([d] + rest)[1..] == rest;
  }

  lemma {:induction false} TotalLengthAppend(a: seq<Dated>, b: seq<Dated>)
    ensures TotalLength(a + b) == TotalLength(a) + TotalLength(b)
  {
    if |a| > 0 {
      assert (a + b)[1..] == a[1..] + b;
      TotalLengthAppend(a[1..], b);
    } else {
      assert a + b == b;
    }
  }

  /** A later cutoff never reports fewer records or less length. */
  lemma {:induction false} UpToMonotone(ds: seq<Dated>, a: int, b: int)
    requires a <= b
    ensures |UpTo(ds, a)| <= |UpTo(ds, b)|
    ensures TotalLength(UpTo(ds, a)) <= TotalLength(UpTo(ds, b))
  {
    if |ds| > 0 {
      UpToMonotone(ds[1..], a, b);
      var h := if ds[0].year <= a then [ds[0]] else [];
      var k := if ds[0].year <= b then [ds[0]] else [];
      TotalLengthAppend(h, UpTo(ds[1..], a));
      TotalLengthAppend(k, UpTo(ds[1..], b));
    }
  }

  /** A cutoff at or after every record's year selects the whole dataset. */
  lemma {:induction false} UpToAll(ds: seq<Dated>, c: int)
    requires forall i :: 0 <= i < |ds| ==> ds[i].year <= c
    ensures UpTo(ds, c) == ds
  {
    if |ds| > 0 {
      UpToAll(ds[1..], c);
      assert ds == [ds[0]] + ds[1..];
    }
  }

  /** Moving the cutoff from `a` to `b` across no other record year adds
      exactly the records of year `b`: their number to the count and their
      length to the cumulative length. */
  lemma {:induction false} UpToStep(ds: seq<Dated>, a: int, b: int)
    requires a < b
    requires forall i :: 0 <= i < |ds| ==> !(a < ds[i].year < b)
    ensures |UpTo(ds, b)| == |UpTo(ds, a)| + |InYear(ds, b)|
    ensures TotalLength(UpTo(ds, b)) == TotalLength(UpTo(ds, a)) + TotalLength(InYear(ds, b))
  {
    if |ds| > 0 {
      var t := ds[1..];
      UpToStep(t, a, b);
      var ha := if ds[0].year <= a then [ds[0]] else [];
      var hb := if ds[0].year <= b then [ds[0]] else [];
      var hy := if ds[0].year == b then [ds[0]] else [];
      TotalLengthAppend(ha, UpTo(t, a));
      TotalLengthAppend(hb, UpTo(t, b));
      TotalLengthAppend(hy, InYear(t, b));
      assert TotalLength(hb) == TotalLength(ha) + TotalLength(hy);
    }
  }

  /** A year that some record carries selects at least that record. */
  lemma {:induction false} InYearNonEmpty(ds: seq<Dated>, i: int)
    requires 0 <= i < |ds|
    ensures ds[i] in InYear(ds, ds[i].year)
  {
    SelectionContents(ds, ds[i].year);
    assert multiset(ds)[ds[i]] > 0;
  }
}

=== FILE: timestamp.dfy ===
/**
 * Derivation of the construction year from a record's timestamp:
 * `datetime.strptime(x, "%Y-%m-%dT%H:%M:%S").date().year`.
 *
 * CPython's `_strptime` turns the format into a regular expression, matched
 * case-insensitively against the whole string, with one alternation per
 * directive:
 *   %Y  four digits
 *   %m  1[0-2] | 0[1-9] | [1-9]
 *   %d  3[01] | [12]d | 0[1-9] | [1-9] | " "[1-9]
 *   %H  2[0-3] | [0-1]d | d
 *   %M  [0-5]d | d
 *   %S  6[0-1] | [0-5]d | d
 * The matched fields are then handed to the date and datetime constructors,
 * which reject year 0, a day past the end of its month, and seconds 60 and 61.
 * Any failure raises ValueError; the model returns `Err(MalformedTimestamp)`.
 */
module Timestamp {
  import opened Records

  datatype DateTime = DateTime(year: int, month: int, day: int, hour: int, minute: int, second: int)

  predicate IsDigit(c: char) { '0' <= c <= '9' }

  predicate AllDigits(s: string)
  {
    forall i :: 0 <= i < |s| ==> IsDigit(s[i])
  }

  function Digit(c: char): int
  {
    c as int - '0' as int
  }

  /** Decimal value of a string of digits. */
  function Number(s: string): nat
    requires AllDigits(s)
  {
    if |s| == 0 then 0 else 10 * Number(s[..|s|-1]) + Digit(s[|s|-1])
  }

  // ---- The directive alternatives ---------------------------------------

  predicate YearField(f: string)
  {
    |f| == 4 && AllDigits(f)
  }

  predicate MonthField(f: string)
  {
    || (|f| == 2 && f[0] == '1' && '0' <= f[1] <= '2')
    || (|f| == 2 && f[0] == '0' && '1' <= f[1] <= '9')
    || (|f| == 1 && '1' <= f[0] <= '9')
  }

  predicate DayField(f: string)
  {
    || (|f| == 2 && f[0] == '3' && '0' <= f[1] <= '1')
    || (|f| == 2 && '1' <= f[0] <= '2' && IsDigit(f[1]))
    || (|f| == 2 && f[0] == '0' && '1' <= f[1] <= '9')
    || (|f| == 1 && '1' <= f[0] <= '9')
    || (|f| == 2 && f[0] == ' ' && '1' <= f[1] <= '9')
  }

  predicate HourField(f: string)
  {
    || (|f| == 2 && f[0] == '2' && '0' <= f[1] <= '3')
    || (|f| == 2 && '0' <= f[0] <= '1' && IsDigit(f[1]))
    || (|f| == 1 && IsDigit(f[0]))
  }

  predicate MinuteField(f: string)
  {
    || (|f| == 2 && '0' <= f[0] <= '5' && IsDigit(f[1]))
    || (|f| == 1 && IsDigit(f[0]))
  }

  predicate SecondField(f: string)
  {
    || (|f| == 2 && f[0] == '6' && '0' <= f[1] <= '1')
    || (|f| == 2 && '0' <= f[0] <= '5' && IsDigit(f[1]))
    || (|f| == 1 && IsDigit(f[0]))
  }

  /** `int()` of a matched one- or two-character field; the blank that may
      lead a day is ignored. */
  function FieldValue(f: string): int
    requires 1 <= |f| <= 2
  {
    if |f| == 1 then Digit(f[0])
    else (if f[0] == ' ' then 0 else Digit(f[0])) * 10 + Digit(f[1])
  }

  /** The literal `T` of the format also matches `t`: the pattern is compiled
      case-insensitively. */
  predicate Separates(c: char, sep: char)
  {
    c == sep || (sep == 'T' && c == 't')
  }

  /** Splits off a field of one or two characters that ends at `sep`. No
      field alternative contains a separator, so the regular expression can
      only split where the separator first occurs. */
  function Cut(s: string, sep: char): (r: Option<(string, string)>)
    ensures r.Some? ==> 1 <= |r.value.0| <= 2 && |r.value.0| + 1 + |r.value.1| == |s|
  {
    if |s| >= 2 && Separates(s[1], sep) then Some((s[..1], s[2..]))
    else if |s| >= 3 && Separates(s[2], sep) then Some((s[..2], s[3..]))
    else None
  }

  // ---- Calendar validity --------------------------------------------------

  predicate LeapYear(y: int)
  {
    y % 4 == 0 && (y % 100 != 0 || y % 400 == 0)
  }

  function DaysInMonth(y: int, m: int): int
    requires 1 <= m <= 12
  {
    if m == 2 then (if LeapYear(y) then 29 else 28)
    else if m == 4 || m == 6 || m == 9 || m == 11 then 30
    else 31
  }

  /** What the date and datetime constructors accept. */
  predicate ValidDateTime(t: DateTime)
  {
    && 1 <= t.year <= 9999
    && 1 <= t.month <= 12
    && 1 <= t.day <= DaysInMonth(t.year, t.month)
    && 0 <= t.hour <= 23
    && 0 <= t.minute <= 59
    && 0 <= t.second <= 59
  }

  // ---- Parsing ------------------------------------------------------------

  /** What each directive's pattern alone guarantees about the value of
      the field it matches. Only the seconds can exceed what the constructors
      accept: 60 and 61 match `6[0-1]`. */
  lemma {:induction false} DirectiveRanges(f: string)
    ensures MonthField(f) ==> 1 <= FieldValue(f) <= 12
    ensures DayField(f) ==> 1 <= FieldValue(f) <= 31
    ensures HourField(f) ==> 0 <= FieldValue(f) <= 23
    ensures MinuteField(f) ==> 0 <= FieldValue(f) <= 59
    ensures SecondField(f) ==> 0 <= FieldValue(f) <= 61
  {
  }

  /** The matched fields handed to the constructors: `None` where a field
      does not match its directive or the constructors reject the values.
      Once every field matches, the constructors refuse only year 0, a day
      past the end of its month, and seconds 60 and 61. */
  function FromFields(y: string, mon: string, day: string, hr: string, mi: string, sec: string): (r: Option<DateTime>)
    requires YearField(y)
    ensures !(MonthField(mon) && DayField(day) && HourField(hr) && MinuteField(mi) && SecondField(sec)) ==> r.None?
    ensures MonthField(mon) && DayField(day) && HourField(hr) && MinuteField(mi) && SecondField(sec) ==>
              (r.Some? <==> && Number(y) >= 1
                            && 1 <= FieldValue(mon) <= 12
                            && FieldValue(day) <= DaysInMonth(Number(y), FieldValue(mon))
                            && FieldValue(sec) <= 59)
    ensures r.Some? ==> ValidDateTime(r.value) && r.value.year == Number(y)
  {
    if !(MonthField(mon) && DayField(day) && HourField(hr) && MinuteField(mi) && SecondField(sec)) then None
    else
      NumberOfFour(y);
      DirectiveRanges(mon);
      DirectiveRanges(day);
      DirectiveRanges(hr);
      DirectiveRanges(mi);
      DirectiveRanges(sec);
      var t := DateTime(Number(y), FieldValue(mon), FieldValue(day),
                        FieldValue(hr), FieldValue(mi), FieldValue(sec));
      if ValidDateTime(t) then Some(t) else None
  }

  /** `strptime(s, "%Y-%m-%dT%H:%M:%S")`, `None` where it raises. */
  function Parse(s: string): (r: Option<DateTime>)
    ensures r.Some? ==> ValidDateTime(r.value)
    ensures r.Some? ==>
              && 14 <= |s| <= 19
              && YearField(s[..4]) && s[4] == '-'
              && r.value.year == Number(s[..4])
  {
    if |s| < 5 || !YearField(s[..4]) || s[4] != '-' then None
    else match Cut(s[5..], '-')
      case None => None
      case Some((mon, s1)) => match Cut(s1, 'T')
        case None => None
        case Some((day, s2)) => match Cut(s2, ':')
          case None => None
          case Some((hr, s3)) => match Cut(s3, ':')
            case None => None
            case Some((mi, sec)) => FromFields(s[..4], mon, day, hr, mi, sec)
  }

  /** `yrs(x)`: the construction year, or the error strptime raises. */
  function Year(s: string): (r: Result<int>)
    ensures r.Ok? <==> Parse(s).Some?
    ensures r.Ok? ==> 1 <= r.value <= 9999 && YearField(s[..4]) && r.value == Number(s[..4])
    ensures r.Err? ==> r.error == MalformedTimestamp(s)
  {
    match Parse(s)
    case Some(t) => Ok(t.year)
    case None => Err(MalformedTimestamp(s))
  }

  // ---- The canonical rendering, as a partner of Parse ---------------------

  function DigitChar(d: int): (c: char)
    requires 0 <= d <= 9
    ensures IsDigit(c) && Digit(c) == d
  {
    ('0' as int + d) as char
  }

  function Pad2(n: int): (f: string)
    requires 0 <= n <= 99
  {
    [DigitChar(n / 10), DigitChar(n % 10)]
  }

  function Pad4(n: int): (f: string)
    requires 0 <= n <= 9999
  {
    Pad2(n / 100) + Pad2(n % 100)
  }

  /** Field values that fit the fixed `YYYY-MM-DDTHH:MM:SS` layout. */
  predicate Renderable(t: DateTime)
  {
    && 0 <= t.year <= 9999
    && 0 <= t.month <= 99 && 0 <= t.day <= 99
    && 0 <= t.hour <= 99 && 0 <= t.minute <= 99 && 0 <= t.second <= 99
  }

  /** Field `f`, then the character `c`, then the rest of the string. */
  function Join(f: string, c: char, rest: string): (s: string)
    ensures |s| == |f| + 1 + |rest|
    ensures s[..|f|] == f && s[|f|] == c && s[|f| + 1..] == rest
  {
    f + [c] + rest
  }

  /** Fields laid out as the format `%Y-%m-%dT%H:%M:%S` prescribes, with
      `c` between the date and the time. */
  function Formatted(y: string, mon: string, day: string, c: char, hr: string, mi: string, sec: string): string
  {
    Join(y, '-', Join(mon, '-', Join(day, c, Join(hr, ':', Join(mi, ':', sec)))))
  }

  /** The zero-padded `YYYY-MM-DDTHH:MM:SS` text of `t`. */
  function Render(t: DateTime): (s: string)
    requires Renderable(t)
  {
    Formatted(Pad4(t.year), Pad2(t.month), Pad2(t.day), 'T', Pad2(t.hour), Pad2(t.minute), Pad2(t.second))
  }

  lemma {:induction false} NumberOfFour(f: string)
    requires YearField(f)
    ensures Number(f) == 1000 * Digit(f[0]) + 100 * Digit(f[1]) + 10 * Digit(f[2]) + Digit(f[3])
  {
    assert f[..3][..2] == f[..2] && f[..2][..1] == f[..1] && f[..1][..0] == [];
    assert f[..|f|-1] == f[..3];
    assert Number(f[..1]) == Digit(f[0]);
    assert Number(f[..2]) == 10 * Digit(f[0]) + Digit(f[1]);
    assert Number(f[..3]) == 100 * Digit(f[0]) + 10 * Digit(f[1]) + Digit(f[2]);
  }

  lemma {:induction false} FourDigits(n: int)
    requires 0 <= n <= 9999
    ensures n == 1000 * (n / 100 / 10) + 100 * (n / 100 % 10) + 10 * (n % 100 / 10) + n % 100 % 10
  {
    var h, l := n / 100, n % 100;
    assert n == 100 * h + l;
    assert h == 10 * (h / 10) + h % 10;
    assert l == 10 * (l / 10) + l % 10;
  }

  lemma {:induction false} Pad4Value(n: int)
    requires 0 <= n <= 9999
    ensures YearField(Pad4(n)) && Number(Pad4(n)) == n
  {
    NumberOfFour(Pad4(n));
    FourDigits(n);
  }

  /** A two-digit field matches a directive exactly when its value is in the
      directive's range. */
  lemma {:induction false} Pad2Fields(n: int)
    requires 0 <= n <= 99
    ensures var f := Pad2(n);
      && |f| == 2 && IsDigit(f[0]) && IsDigit(f[1])
      && FieldValue(f) == n
      && (MonthField(f) <==> 1 <= n <= 12)
      && (DayField(f) <==> 1 <= n <= 31)
      && (HourField(f) <==> n <= 23)
      && (MinuteField(f) <==> n <= 59)
      && (SecondField(f) <==> n <= 61)
  {
  }

  /** A field of one or two characters followed by its separator is cut
      off whole, unless its second character already matches the separator. */
  lemma {:induction false} CutField(f: string, c: char, sep: char, rest: string)
    requires 1 <= |f| <= 2 && Separates(c, sep)
    requires |f| == 2 ==> !Separates(f[1], sep)
    ensures Cut(Join(f, c, rest), sep) == Some((f, rest))
  {
  }

  /** Fields of one or two characters, none ending in a character its
      own separator would match, and a `T` or `t` between date and time. */
  predicate CutsCleanly(mon: string, day: string, c: char, hr: string, mi: string)
  {
    && 1 <= |mon| <= 2 && 1 <= |day| <= 2 && 1 <= |hr| <= 2 && 1 <= |mi| <= 2
    && Separates(c, 'T')
    && (|mon| == 2 ==> !Separates(mon[1], '-'))
    && (|day| == 2 ==> !Separates(day[1], 'T'))
    && (|hr| == 2 ==> !Separates(hr[1], ':'))
    && (|mi| == 2 ==> !Separates(mi[1], ':'))
  }

  /** A string laid out as the format prescribes is cut into exactly its
      fields, so it parses exactly when every field matches its directive
      and the constructors accept the values. */
  lemma {:induction false} ParseLayout(y: string, mon: string, day: string, c: char, hr: string, mi: string, sec: string)
    requires YearField(y) && CutsCleanly(mon, day, c, hr, mi)
    ensures Parse(Formatted(y, mon, day, c, hr, mi, sec)) == FromFields(y, mon, day, hr, mi, sec)
  {
    CutField(mon, '-', '-', Join(day, c, Join(hr, ':', Join(mi, ':', sec))));
    CutField(day, c, 'T', Join(hr, ':', Join(mi, ':', sec)));
    CutField(hr, ':', ':', Join(mi, ':', sec));
    CutField(mi, ':', ':', sec);
  }

  /** A successful cut splits the string into the field, a character the
      separator matches, and the rest, and the field does not end in one. */
  lemma {:induction false} CutSplits(s: string, sep: char, f: string, rest: string)
    requires Cut(s, sep) == Some((f, rest))
    ensures 1 <= |f| <= 2 && |f| < |s| && Separates(s[|f|], sep)
    ensures |f| == 2 ==> !Separates(f[1], sep)
    ensures s == Join(f, s[|f|], rest)
  {
    JoinAt(s, |f|);
  }

  /** Any string is the join of its prefix, the character at a position,
      and the suffix after it. */
  lemma {:induction false} JoinAt(s: string, i: int)
    requires 0 <= i < |s|
    ensures s == Join(s[..i], s[i], s[i + 1..])
  {
    assert s == s[..i] + [s[i]] + s[i + 1..];
  }

  /** Conversely, every string the parser accepts is laid out as the format
      prescribes, with fields of one or two characters, and parses as its
      fields do: nothing outside the layout is accepted. */
  lemma {:induction false} ParseOnlyLayout(s: string)
    ensures Parse(s).Some? ==>
              exists y, mon, day, c, hr, mi, sec ::
                && YearField(y) && CutsCleanly(mon, day, c, hr, mi)
                && s == Formatted(y, mon, day, c, hr, mi, sec)
                && Parse(s) == FromFields(y, mon, day, hr, mi, sec)
  {
    if |s| < 5 || !YearField(s[..4]) || s[4] != '-' {
    } else {
      var y := s[..4];
      match Cut(s[5..], '-')
      case None =>
      case Some((mon, s1)) =>
        match Cut(s1, 'T')
        case None =>
        case Some((day, s2)) =>
          match Cut(s2, ':')
          case None =>
          case Some((hr, s3)) =>
            match Cut(s3, ':')
            case None =>
            case Some((mi, sec)) =>
              Reassemble(s, mon, s1, day, s2, hr, s3, mi, sec);
              assert Parse(s) == FromFields(y, mon, day, hr, mi, sec);
    }
  }

  /** The pieces of four successful cuts reassemble into the layout. */
  lemma {:induction false} Reassemble(s: string, mon: string, s1: string, day: string, s2: string,
                                      hr: string, s3: string, mi: string, sec: string)
    requires |s| >= 5 && s[4] == '-'
    requires Cut(s[5..], '-') == Some((mon, s1)) && Cut(s1, 'T') == Some((day, s2))
    requires Cut(s2, ':') == Some((hr, s3)) && Cut(s3, ':') == Some((mi, sec))
    ensures CutsCleanly(mon, day, s1[|day|], hr, mi)
    ensures s == Formatted(s[..4], mon, day, s1[|day|], hr, mi, sec)
  {
    CutSplits(s3, ':', mi, sec);
    CutSplits(s2, ':', hr, s3);
    CutSplits(s1, 'T', day, s2);
    CutSplits(s[5..], '-', mon, s1);
    JoinAt(s, 4);
    TimeLayout(s, s[..4], mon, day, s1[|day|], hr, mi, sec, s1, s2, s3);
  }

  /** Reassembling the cut pieces gives the layout. */
  lemma {:induction false} TimeLayout(s: string, y: string, mon: string, day: string, c: char,
                                      hr: string, mi: string, sec: string, s1: string, s2: string, s3: string)
    requires s3 == Join(mi, ':', sec) && s2 == Join(hr, ':', s3)
    requires s1 == Join(day, c, s2)
    requires |s| >= 5 && s == Join(y, '-', s[5..]) && s[5..] == Join(mon, '-', s1)
    ensures s == Formatted(y, mon, day, c, hr, mi, sec)
  {
  }

  /** Round trip: the canonical rendering of a date-time parses back to it
      exactly when the constructors accept it, and to nothing otherwise. */
  lemma {:induction false} ParseRender(t: DateTime)
    requires Renderable(t)
    ensures Parse(Render(t)) == if ValidDateTime(t) then Some(t) else None
  {
    Pad4Value(t.year);
    Pad2Fields(t.month);
    Pad2Fields(t.day);
    Pad2Fields(t.hour);
    Pad2Fields(t.minute);
    Pad2Fields(t.second);
    ParseLayout(Pad4(t.year), Pad2(t.month), Pad2(t.day), 'T', Pad2(t.hour), Pad2(t.minute), Pad2(t.second));
  }

  /** Hence a well-formed timestamp yields its year, and a calendar-invalid
      one in the same layout is an error rather than some default year. */
  lemma {:induction false} YearOfRender(t: DateTime)
    requires Renderable(t)
    ensures ValidDateTime(t) ==> Year(Render(t)) == Ok(t.year)
    ensures !ValidDateTime(t) ==> Year(Render(t)) == Err(MalformedTimestamp(Render(t)))
  {
    ParseRender(t);
  }

  /** The parser is more lenient than the layout suggests: one-digit
      fields and a lower-case separator are accepted
      (`2020-1-5t7:3:9`). */
  lemma {:induction false} ShortFields()
    ensures Year(Formatted("2020", "1", "5", 't', "7", "3", "9")) == Ok(2020)
  {
    var t := DateTime(2020, 1, 5, 7, 3, 9);
    assert FromFields("2020", "1", "5", "7", "3", "9") == Some(t) by {
      NumberOfFour("2020");
      assert MonthField("1") && DayField("5") && HourField("7");
      assert MinuteField("3") && SecondField("9");
      assert FieldValue("1") == 1 && FieldValue("5") == 5 && FieldValue("7") == 7;
      assert FieldValue("3") == 3 && FieldValue("9") == 9;
      assert ValidDateTime(t);
    }
    ParseLayout("2020", "1", "5", 't', "7", "3", "9");
  }

  /** A day may be padded with a blank instead of a zero
      (`1987-12- 5T23:59:59`). */
  lemma {:induction false} BlankPaddedDay()
    ensures Year(Formatted("1987", "12", " 5", 'T', "23", "59", "59")) == Ok(1987)
  {
    var t := DateTime(1987, 12, 5, 23, 59, 59);
    assert FromFields("1987", "12", " 5", "23", "59", "59") == Some(t) by {
      NumberOfFour("1987");
      assert MonthField("12") && DayField(" 5") && HourField("23");
      assert MinuteField("59") && SecondField("59");
      assert FieldValue("12") == 12 && FieldValue(" 5") == 5;
      assert FieldValue("23") == 23 && FieldValue("59") == 59;
      assert ValidDateTime(t);
    }
    ParseLayout("1987", "12", " 5", 'T', "23", "59", "59");
  }

  /** 29 February of a common year passes the pattern but not the calendar
      (`2021-02-29T00:00:00`). */
  lemma {:induction false} NoLeapDay()
    ensures Year(Formatted("2021", "02", "29", 'T', "00", "00", "00")).Err?
  {
    NumberOfFour("2021");
    ParseLayout("2021", "02", "29", 'T', "00", "00", "00");
    assert FieldValue("02") == 2 && FieldValue("29") == 29;
    assert !LeapYear(2021);
  }

  /** A leap second matches the pattern but is refused by the constructor
      (`2020-01-01T00:00:60`). */
  lemma {:induction false} NoLeapSecond()
    ensures Year(Formatted("2020", "01", "01", 'T', "00", "00", "60")).Err?
  {
    ParseLayout("2020", "01", "01", 'T', "00", "00", "60");
    assert SecondField("60") && FieldValue("60") == 60;
  }

  /** Year 0 does not exist (`0000-01-01T00:00:00`). */
  lemma {:induction false} NoYearZero()
    ensures Year(Formatted("0000", "01", "01", 'T', "00", "00", "00")).Err?
  {
    NumberOfFour("0000");
    ParseLayout("0000", "01", "01", 'T', "00", "00", "00");
  }

  /** A blank instead of the `T` is an error (`2020-01-01 00:00:00`). */
  lemma {:induction false} BlankForT()
    ensures Year(Formatted("2020", "01", "01", ' ', "00", "00", "00")).Err?
  {
    var rest := Join("01", ' ', Join("00", ':', Join("00", ':', "00")));
    CutField("01", '-', '-', rest);
    assert rest[1] == '1' && rest[2] == ' ';
  }

  /** A date without a time is an error (`2020-01-01`). */
  lemma {:induction false} DateOnly()
    ensures Year(Join("2020", '-', Join("01", '-', "01"))).Err?
  {
    CutField("01", '-', '-', "01");
  }
}

=== FILE: yearindex.dfy ===
/**
 * The ordered distinct years and what is derived from them: the colour rank
 * of a year (`colorize`), the gradient mix parameter of each rank (the
 * `colorFader` loop) and the year-to-colour table `cmap`.
 *
 * Colours are ranked by a year's position among the distinct years, not by
 * its numeric value, so gaps between years do not skew the gradient.
 */
module YearIndex {
  import opened Records

  predicate StrictlyAscending(s: seq<int>)
  {
    forall i, j :: 0 <= i < j < |s| ==> s[i] < s[j]
  }

  /** Adds `y` to an ascending sequence of distinct values, in place. */
  function Insert(s: seq<int>, y: int): (r: seq<int>)
    requires StrictlyAscending(s)
    ensures StrictlyAscending(r)
    ensures forall x :: x in r <==> x in s || x == y
    ensures |r| <= |s| + 1
  {
    if |s| == 0 then [y]
    else if y < s[0] then [y] + s
    else if y == s[0] then s
    else
      var t := Insert(s[1..], y);
      assert forall x :: x in s[1..] ==> s[0] < x;
      assert forall k :: 0 <= k < |t| ==> s[0] < t[k] by {
        forall k | 0 <= k < |t| ensures s[0] < t[k] {
          assert t[k] in t;
        }
      }
      [s[0]] + t
  }

  /** `np.sort(edf.year.unique())`. */
  function DistinctYears(ys: seq<int>): (r: seq<int>)
    ensures StrictlyAscending(r)
    ensures forall x :: x in r <==> x in ys
    ensures |r| <= |ys|
  {
    if |ys| == 0 then []
    else
      var r := Insert(DistinctYears(ys[..|ys|-1]), ys[|ys|-1]);
      assert ys == ys[..|ys|-1] + [ys[|ys|-1]];
      r
  }

  /** An ascending sequence of distinct values is determined by its elements. */
  lemma {:induction false} AscendingUnique(a: seq<int>, b: seq<int>)
    requires StrictlyAscending(a) && StrictlyAscending(b)
    requires forall x :: x in a <==> x in b
    ensures a == b
  {
    assert |a| > 0 ==> a[0] in a;
    assert |b| > 0 ==> b[0] in b;
    if |a| > 0 && |b| > 0 {
      // both heads are the least element of the common set
      assert a[0] in a && b[0] in b;
      assert a[0] in b && b[0] in a;
      assert a[0] == b[0];
      assert a == [a[0]] + a[1..] && b == [b[0]] + b[1..];
      forall x ensures x in a[1..] <==> x in b[1..] {
        if x in a[1..] {
          var k :| 0 <= k < |a[1..]| && a[1..][k] == x;
          assert a[0] < a[k + 1] && x in a;
          var m :| 0 <= m < |b| && b[m] == x;
          assert m > 0 && b[1..][m - 1] == x;
        }
        if x in b[1..] {
          var k :| 0 <= k < |b[1..]| && b[1..][k] == x;
          assert b[0] < b[k + 1] && x in b;
          var m :| 0 <= m < |a| && a[m] == x;
          assert m > 0 && a[1..][m - 1] == x;
        }
      }
      AscendingUnique(a[1..], b[1..]);
      assert a == [a[0]] + a[1..] && b == [b[0]] + b[1..];
    }
  }

  /** The distinct years depend only on which years occur, not on their order
      or multiplicity. */
  lemma {:induction false} DistinctYearsOfSameSet(ys: seq<int>, zs: seq<int>)
    requires forall x :: x in ys <==> x in zs
    ensures DistinctYears(ys) == DistinctYears(zs)
  {
    AscendingUnique(DistinctYears(ys), DistinctYears(zs));
  }

  /** Every record's year among `years`, so `colorize` never raises. */
  lemma {:induction false} YearsCoverRecords(ds: seq<Dated>)
    ensures forall i :: 0 <= i < |ds| ==> ds[i].year in DistinctYears(YearsOf(ds))
  {
    forall i | 0 <= i < |ds| ensures ds[i].year in DistinctYears(YearsOf(ds)) {
      assert YearsOf(ds)[i] == ds[i].year;
    }
  }

  /** `colorize(x)`: the first index of `x` in `years`; numpy's
      `where(...)[0][0]` raises IndexError when there is none. */
  function Rank(years: seq<int>, x: int): (r: Option<nat>)
    ensures r.Some? <==> x in years
    ensures r.Some? ==> r.value < |years| && years[r.value] == x
    ensures r.Some? ==> forall j :: 0 <= j < r.value ==> years[j] != x
  {
    if |years| == 0 then None
    else if years[0] == x then Some(0)
    else match Rank(years[1..], x)
      case None => None
      case Some(k) => Some(k + 1)
  }

  /** Over the distinct ascending years, the rank of the year at position
      `i` is `i`. */
  lemma {:induction false} RankOfPosition(years: seq<int>, i: int)
    requires StrictlyAscending(years)
    requires 0 <= i < |years|
    ensures Rank(years, years[i]) == Some(i)
  {
  }

  /** Ranks order years as their values do, in both directions. */
  lemma {:induction false} RankMonotone(years: seq<int>, x: int, y: int)
    requires StrictlyAscending(years)
    requires x in years && y in years
    ensures x < y <==> Rank(years, x).value < Rank(years, y).value
  {
  }

  /** The gradient position `i/N` of rank `i` among `n` distinct years:
      0 is the first endpoint colour, 1 would be the second. */
  function Mix(i: nat, n: nat): real
    requires i < n
  {
    i as real / n as real
  }

  /** Every position lies in [0, 1); rank 0 sits on the first endpoint. */
  lemma {:induction false} MixBounds(i: nat, n: nat)
    requires i < n
    ensures 0.0 <= Mix(i, n) < 1.0
    ensures i == 0 <==> Mix(i, n) == 0.0
  {
    assert Mix(i, n) * n as real == i as real;
  }

  /** Positions strictly increase with the rank. */
  lemma {:induction false} MixIncreasing(i: nat, j: nat, n: nat)
    requires i < j < n
    ensures Mix(i, n) < Mix(j, n)
  {
    assert Mix(j, n) - Mix(i, n) == (j - i) as real / n as real;
  }

  /** The `colors` loop: one colour per distinct year, colour `i` faded from
      the first endpoint by `i/N`. */
  method Mixes(n: nat) returns (mixes: seq<real>)
    ensures |mixes| == n
    ensures forall i :: 0 <= i < n ==> mixes[i] == Mix(i, n)
    ensures n > 0 ==> mixes[0] == 0.0
    ensures forall i :: 0 <= i < n ==> 0.0 <= mixes[i] < 1.0
    ensures forall i, j :: 0 <= i < j < n ==> mixes[i] < mixes[j]
  {
    mixes := [];
    var i := 0;
    while i < n
      invariant 0 <= i <= n
      invariant |mixes| == i
      invariant forall k :: 0 <= k < i ==> mixes[k] == Mix(k, n)
    {
      mixes := mixes + [Mix(i, n)];
      i := i + 1;
    }
    forall k | 0 <= k < n ensures 0.0 <= mixes[k] < 1.0 && (k == 0 ==> mixes[k] == 0.0) {
      MixBounds(k, n);
    }
    forall k, j | 0 <= k < j < n ensures mixes[k] < mixes[j] {
      MixIncreasing(k, j, n);
    }
  }

  /** `cmap = dict(zip(ys, colors))`: the year at position `i` is paired
      with colour `i`, the entry of `colors` faded by `Mix(i, N)`. */
  function ColourTable(years: seq<int>): (cmap: map<int, nat>)
    requires StrictlyAscending(years)
    ensures forall y :: y in cmap <==> y in years
    ensures forall i :: 0 <= i < |years| ==> cmap[years[i]] == i
  {
    map i | 0 <= i < |years| :: years[i] := i
  }

  /** The animation's colour lookup and `colorize`, which fills the `color`
      column, give every year the same colour index. */
  lemma {:induction false} ColourTableAgreesWithRank(years: seq<int>, y: int)
    requires StrictlyAscending(years)
    requires y in years
    ensures ColourTable(years)[y] == Rank(years, y).value
  {
    var i :| 0 <= i < |years| && years[i] == y;
    RankOfPosition(years, i);
  }
}
